=== FILE: README.md ===
# gittools in Dafny

gittools is a thin Go façade over the go-git engine. It clones a repository
over SSH, and then offers checkout of a branch or tag, pull, push, fetch,
commit, `.gitignore` editing and queries, and create/delete of branches and
tags. This project models the façade's own logic. The engine is a parameter:
every engine call (HEAD lookup, worktree status, checkout, push, tag and
branch deletion, pattern matching, the file system, the home directory) is
passed in as the value it returns, or as a function from its argument to that
value. A Go `error` is an `Option<Error>` (`None` is nil). A `(T, error)` pair
is a `Result<T>`.

Modules, one per Go file:

- `Errors` (error.go): the re-exported engine sentinels, and `CheckErr`. It
  turns "already up to date" and "non-fast-forward update" into success.
- `Refs` (ref.go): reference names and their namespaces. Covers qualifying a
  short name as a branch, remote-tracking branch or tag (idempotent), and
  resolving an empty name through HEAD.
- `RefSpecSyntax`: git's `[+]<src>:<dst>` push ref-spec syntax. The spec
  strings the handles build are read back through it.
- `Tags` (tag.go): the shared handle `Base` with its `isDeleted` flag, push
  and delete. Also the `Tag` handle and the two spec strings it pushes: a
  forced update, or a deletion once deleted.
- `Branches` (branch.go): the `Branch` handle. Its local delete runs three
  steps, each only if the one before succeeded. It pushes nothing until it
  is deleted, and the deletion spec after.
- `GitIgnore` (the text part of `Ignore` in repository.go): how the old
  `.gitignore` is split into lines and the existing patterns collected, and
  what text is written back.
- `Repositories` (repository.go): the `Repository` class.
  - It caches HEAD's hash and name.
  - It has the clean-worktree guard, which ignores untracked files at hidden
    paths.
  - It has checkout, pull, push, fetch and commit; checkout, pull and
    commit refresh the cache.
  - It has `Ignore`, `isIgnore`, `getHash`, and the remote delete of tags and
    branches.
- `Configs` (gen_config_optiongen.go): the five settings. Each functional
  option is a value that is applied in place and returns its undo option.
  Also the defaults, `NewConfig` and `ApplyOption`.
- `Cloners` (clone.go): the shape of the log lines and where the SSH key is
  looked for. Also the cached key set in `Cloner`, and the package's default
  cloner, made on first use (`Package.Default`).
- `Strings`: `IndexOf`, used by the line scanner and the ref-spec reader.

The model follows the code, including these behaviours a reader might not expect:

- `CheckoutBranch("")` and `CheckoutTag("")` check out `refs/heads/master`.
  They do not check out HEAD's branch.
- A non-empty branch name checks out the remote-tracking reference
  `refs/remotes/origin/<name>`. So `CheckoutBranch("")` is not
  `CheckoutBranch("main")` (`Repositories.OnlyEmptyNameChecksOutMaster`,
  `Repositories.NamedMasterIsRemoteTracking`).
- The worktree guard skips untracked files at hidden paths. The guard's own
  filter does not consult ignore patterns; which files the status lists is
  the engine's. Any other failure of the status computation is reported as
  "current worktree not clean".
- `Commit`'s "nothing to commit" test is the engine's raw status check.
  Hidden untracked files are not dropped there.
- `Ignore` fails with the lookup error when there is no `.gitignore` yet. It
  does not create one (repository.go:193-214).

## Model

| member | source | states |
|---|---|---|
| Errors.CheckErr | error.go:39-44 | the result is nil when the error is nil, already up to date or a non-fast-forward update, and is the error itself for every other error |
| Errors.CheckErrIdempotent | error.go:39-44 | normalising twice is normalising once |
| Errors.CheckErrKeepsOthers | error.go:39-44 | every non-benign error survives normalisation |
| Refs.NamespacesDisjoint | ref.go:7-19 | no name is both a branch and a tag or remote-tracking name, and no tag name is remote-tracking |
| Refs.BranchReferenceName | ref.go:7-12 | the result is a branch name; it is the input exactly when the input already is one; otherwise it is `refs/heads/` + input and shortens back to the input |
| Refs.BranchRemoteReferenceName | ref.go:14-19 | the result is remote-tracking; it is the input exactly when the input already is; otherwise it is `refs/remotes/origin/` + input, whose short form is `origin/` + input |
| Refs.TagReferenceName | ref.go:32-37 | the result is a tag name; it is the input exactly when the input already is one; otherwise it is `refs/tags/` + input and shortens back to the input |
| Refs.BranchReferenceNameIdempotent | ref.go:7-12 | qualifying an already-qualified branch name changes nothing |
| Refs.BranchRemoteReferenceNameIdempotent | ref.go:14-19 | qualifying an already remote-tracking name changes nothing |
| Refs.TagReferenceNameIdempotent | ref.go:32-37 | qualifying an already-qualified tag name changes nothing |
| Refs.BranchReferenceNameInjective | ref.go:7-12 | distinct unqualified names give distinct branch names |
| Refs.ResolveBranchName | ref.go:21-30 | fails exactly when the name is empty and HEAD cannot be read, with HEAD's error; otherwise a branch name: the qualified input, or for an empty input the qualified short form of HEAD's name |
| Refs.ResolveTagName | ref.go:39-48 | the same for tags: fails only for an empty name without HEAD; otherwise a tag name, from the input or from HEAD's short name |
| Refs.EmptyBranchNameIsCurrentBranch | ref.go:21-30 | on a branch HEAD, the empty branch name resolves to HEAD's own branch, the same as naming that branch |
| Refs.EmptyTagNameFollowsHeadBranch | ref.go:39-48 | on a branch HEAD, the empty tag name resolves to a tag named after HEAD's branch |
| RefSpecSyntax.ParseDeletion | tag.go:47-48 | the string `:<ref>` reads as a non-forced deletion of `<ref>` |
| RefSpecSyntax.ParseForcedUpdate | tag.go:50 | the string `+<ref>:<ref>` reads as a forced update of `<ref>` from itself, not a deletion |
| Tags.Base.constructor | tag.go:39-43 | a new handle is not pending deletion and builds its specs with the given builder |
| Tags.Base.Push | tag.go:17-27 | the key error if the key cannot be had; otherwise the engine's push answer for the handle's current specs, with the benign outcomes turned into success |
| Tags.Base.Delete | tag.go:29-32 | marks the handle pending deletion and never fails |
| Tags.TagRefSpecs | tag.go:45-51 | exactly one spec, whose destination is the qualified tag; it is a deletion exactly when the handle is deleted, and otherwise the forced update of the tag from itself |
| Tags.ShortAndFullTagNameSameSpecs | tag.go:45-51 | a short and a fully qualified tag name give the same specs |
| Tags.Tag.constructor | tag.go:39-43 | a new tag handle is not pending deletion and its specs are the tag's TagRefSpecs |
| Tags.Tag.Delete | tag.go:53-58 | returns the engine's answer for deleting the short tag name; the handle becomes pending deletion only when that succeeded |
| Tags.TagDeleteThenPush | tag.go:39-58 | a fresh tag handle pushes the forced update; after a successful local delete it pushes the deletion, and after a failed one the same forced update |
| Branches.BranchRefSpecs | branch.go:20-26 | no spec while not deleted; once deleted, exactly one spec, the deletion of the qualified branch |
| Branches.ShortAndFullBranchNameSameSpecs | branch.go:20-26 | a short and a fully qualified branch name give the same specs |
| Branches.Branch.constructor | branch.go:14-18 | a new branch handle is not pending deletion and its specs are the branch's BranchRefSpecs |
| Branches.Branch.Delete | branch.go:28-37 | deletes the configuration entry, then removes the merge reference only if that succeeded, then marks the handle; the first error is returned, the engine calls made are listed in order, and the flag is set only on success |
| GitIgnore.IsPatternLine | repository.go:200 | a line that counts as a pattern is non-empty and does not start with `#`; every line starting with a character that is neither `#` nor white space counts |
| GitIgnore.ScanLines | repository.go:197-199 | the line scanner yields no line exactly for an empty text |
| GitIgnore.ExistingPatterns | repository.go:197-203 | every collected pattern is a pattern line; an empty text has none |
| GitIgnore.ScanLinesHaveNoBreak | repository.go:197-203 | no scanned line, and so no collected pattern, holds a line break |
| GitIgnore.MergeIgnore | repository.go:219-226 | the new text starts with the old text and ends with a newline |
| GitIgnore.KeptMembers | repository.go:220-225 | an argument is appended exactly when it is not an existing pattern |
| GitIgnore.MergeShape | repository.go:219-226 | the new text is the old text, a newline, then each argument not already present, each followed by a newline |
| GitIgnore.ScanLinesConcat | repository.go:197-203 | scanning text that ends at a line break and then more text gives the lines of each part, one after the other |
| GitIgnore.LinesAfterMerge | repository.go:183-230 | the lines of the new text are the lines of the old text with a newline added, followed by one line per appended argument; when the old text already ends in a newline, that adds an empty line before the appended ones |
| GitIgnore.TerminatedTextGainsEmptyLine | repository.go:219-226 | an old text ending in a newline gains one empty line, because a newline is written before each appended pattern |
| GitIgnore.MergeAfterTerminatedLine | repository.go:219-226 | ignoring a new pattern `b` in a file holding just the line `a` (newline-terminated) leaves the lines `a`, an empty line, and `b` |
| GitIgnore.ExistingPreserved | repository.go:183-230 | every pattern present before is still present after |
| GitIgnore.PatternsPresentAfterMerge | repository.go:183-230 | after the merge, every single-line, non-blank, non-comment argument is a present pattern |
| GitIgnore.IgnoreTwice | repository.go:183-230 | ignoring the same simple patterns again appends no pattern, only one more newline |
| GitIgnore.AppendedConcat | repository.go:220-225 | the appended text for two argument lists is the appended text of each, one after the other |
| GitIgnore.RepeatedArgumentAppendedTwice | repository.go:220-225 | an argument given twice and not yet present is appended twice, because the present set is not updated during the loop |
| Repositories.DropHiddenUntracked | repository.go:55-62 | exactly the untracked entries at hidden paths are removed; the others keep their state |
| Repositories.DropHiddenUntrackedClean | repository.go:46-64 | the status with hidden untracked entries removed is clean exactly when every entry is unmodified, or untracked at a hidden path |
| Repositories.WorktreeGuard | repository.go:33-44 | the worktree error when there is no worktree; otherwise none exactly when the status can be computed and every entry is unmodified or untracked-and-hidden, else the not-clean error |
| Repositories.BranchCheckoutTarget | repository.go:298-303 | the empty name targets master; any other name targets a remote-tracking reference under origin |
| Repositories.TagCheckoutTarget | repository.go:388-393 | the empty name targets master; any other name targets the qualified tag |
| Repositories.OnlyEmptyNameChecksOutMaster | repository.go:298-303 | no non-empty branch or tag name checks out master |
| Repositories.NamedMasterIsRemoteTracking | repository.go:298-303 | `CheckoutBranch("master")` targets `refs/remotes/origin/master`, while `CheckoutBranch("")` targets `refs/heads/master` |
| Repositories.GetHash | repository.go:320-332 | never fails; an explicit hash is parsed; the empty one gives HEAD's hash, or the zero hash when HEAD cannot be read |
| Repositories.LastMatchImpliesAnyExcludes | repository.go:167-171 | whatever the last-matching-pattern rule ignores, the any-exclude loop ignores too |
| Repositories.NegationIgnoredByAnyExclude | repository.go:167-171 | the converse fails: an excluding pattern followed by a re-including one is ignored by the loop, but not by the last-match rule |
| Repositories.DeleteTagSpecs | repository.go:444-455 | as written, DeleteTag pushes one spec, which is a deletion exactly when the local delete succeeded |
| Repositories.DeleteTagOfRemoteOnlyTagForcePushes | repository.go:444-455 | when the local delete fails (for example a tag that exists only on the remote), DeleteTag pushes the forced update `+<tag>:<tag>` instead of the deletion |
| Repositories.IntendedDeleteTagSpecs | repository.go:444-455 | the intended DeleteTag push: exactly one spec, the deletion of the qualified tag, which is what the code pushes when the local delete succeeds |
| Repositories.DeleteBranchSpecs | repository.go:372-386 | as written, DeleteBranch pushes no spec when the local delete failed, and the deletion when it succeeded |
| Repositories.DeleteBranchWithoutLocalEntryPushesNoDeletion | repository.go:372-386 | a branch with no local configuration entry gets no deletion spec |
| Repositories.IntendedDeleteBranchSpecs | repository.go:372-386 | the intended DeleteBranch push: exactly one spec, the deletion of the qualified branch, which is what the code pushes when the local delete succeeds |
| Repositories.Repository.constructor | repository.go:27-31 | the cache holds HEAD's hash and name, or the zero hash and empty name when HEAD cannot be read |
| Repositories.Repository.UpdateHeadHash | repository.go:102-110 | on HEAD, both cached fields are set from it; without HEAD, its error is returned and the cache is unchanged |
| Repositories.Repository.IsClean | repository.go:46-64 | the worktree or status error when there is one; otherwise clean exactly when every entry is unmodified, or untracked at a hidden path |
| Repositories.Repository.CleanWorkTree | repository.go:33-44 | returns exactly WorktreeGuard's verdict |
| Repositories.Repository.Checkout | repository.go:112-126 | a blocked guard returns its error without checking out; otherwise checks out the reference; a failed checkout returns its error; a successful one refreshes the cache; the cache changes only on success |
| Repositories.Repository.CheckoutBranch | repository.go:298-303 | checks out BranchCheckoutTarget(name) behind the guard; a failed checkout returns its error, and after a successful one HEAD's error or none with the cache holding the new HEAD; the cache changes only on success |
| Repositories.Repository.CheckoutTag | repository.go:388-393 | checks out TagCheckoutTarget(name) behind the guard; a failed checkout returns its error, and after a successful one HEAD's error or none with the cache holding the new HEAD; the cache changes only on success |
| Repositories.Repository.Pull | repository.go:128-147 | the engine pulls exactly when the key and the guard pass; a benign pull answer counts as success and refreshes the cache; other errors are returned and leave the cache unchanged |
| Repositories.Repository.Push | repository.go:284-296 | the key error, or the push answer with benign outcomes turned into success |
| Repositories.Repository.Fetch | repository.go:457-469 | the key error, or the fetch answer with benign outcomes turned into success |
| Repositories.Repository.Commit | repository.go:264-282 | commits exactly when the worktree and status are available and the status is not clean; a clean status is success with nothing done; a successful commit refreshes the cache; the cache changes only then |
| Repositories.Repository.Ignore | repository.go:183-230 | the worktree, file or create error when one occurs, with nothing written; otherwise writes exactly MergeIgnore of the old text and the arguments and returns the write's error |
| Repositories.Repository.IsIgnore | repository.go:154-173 | the worktree error when there is one; otherwise ignored exactly when some global, system or worktree pattern excludes the path |
| Repositories.Repository.DeleteTag | repository.go:444-455 | HEAD's error when the name cannot be resolved; otherwise the key error, or the push answer for DeleteTagSpecs of the resolved tag and the local delete's outcome |
| Repositories.Repository.DeleteBranch | repository.go:372-386 | HEAD's error when the name cannot be resolved; otherwise the key error, or the push answer for DeleteBranchSpecs of the resolved branch and the first local-delete error |
| Configs.FieldsDetermine | gen_config_optiongen.go:14-20 | two configs that agree on all five settings are equal |
| Configs.Set | gen_config_optiongen.go:50-92 | an option sets its own setting to its value and leaves the other four unchanged |
| Configs.Undo | gen_config_optiongen.go:50-92 | the option an option returns writes the same setting, with the value it had before |
| Configs.SetThenUndo | gen_config_optiongen.go:50-92 | applying an option and then the option it returned restores the config |
| Configs.ApplyAll | gen_config_optiongen.go:25-27 | after a non-empty list of options, the setting the last one writes holds its value; a setting no option writes keeps its old value |
| Configs.UndoList | gen_config_optiongen.go:39-43 | one returned option per option applied, each writing the same setting as the option at its position |
| Configs.ApplyAllLastWins | gen_config_optiongen.go:23-32 | after a list of options, each setting holds the value of the last option writing it, or its old value when none does |
| Configs.ReverseUndoRestores | gen_config_optiongen.go:34-44 | applying ApplyOption's returned options in reverse order always restores the config it started from |
| Configs.ForwardUndoRestoresDistinct | gen_config_optiongen.go:34-44 | the documented `ApplyOption(old...)`, in returned order, restores the config when no two options write the same setting |
| Configs.ForwardUndoRepeatedSetting | gen_config_optiongen.go:34-44 | with a repeated setting it does not: from depth 1, applying depths 2 then 3 and then the returned options leaves depth 2 |
| Configs.DefaultValue | gen_config_optiongen.go:101-115 | the defaults are key path `.ssh/id_rsa`, the standard-output logger, empty user name and email, depth 1 |
| Configs.Config.constructor | gen_config_optiongen.go:102 | a new config holds the zero settings |
| Configs.Config.Apply | gen_config_optiongen.go:50-92 | the config becomes Set of its old value and the option; the returned option is Undo of the old value |
| Configs.Config.ApplyOption | gen_config_optiongen.go:38-44 | the options are applied in order, and the returned list is each one's undo, taken on the config as it was just before it |
| Configs.NewDefaultConfig | gen_config_optiongen.go:101-115 | a fresh config holding DefaultValue |
| Configs.NewConfig | gen_config_optiongen.go:23-32 | a fresh config holding the defaults with the caller's options applied in order |
| Cloners.TrimSuffix | clone.go:53 | removes the suffix exactly when the string ends with it, and otherwise returns the string unchanged |
| Cloners.TrimSuffixOnce | clone.go:53 | only one trailing occurrence is removed |
| Cloners.LogLine | clone.go:41-58 | a failure logs fatally the prefix, the failure flag, the arguments, "Error:" and the error; a success prints the prefix, the success flag and the arguments unchanged, except that a last string argument may lose one trailing comma |
| Cloners.SuccessLineDropsTrailingComma | clone.go:50-56 | a success line whose last argument is `s,` prints `s`, with the other arguments untouched |
| Cloners.Join | clone.go:70 | an empty directory gives the path; an empty path gives the directory itself; otherwise directory, `/`, path |
| Cloners.RsaKeyPath | clone.go:67-77 | an absolute key path is used as is; a relative one needs the home directory, whose error is returned; an empty key path gives the home directory itself, and a non-empty one under a non-empty home directory gives the home directory, `/` and the key path |
| Cloners.DefaultKeyUnderHome | clone.go:67-74 | the default key is looked for at `<home>/.ssh/id_rsa` |
| Cloners.Cloner.constructor | clone.go:32 | a new cloner has no cached key set and a fresh config from its options |
| Cloners.Cloner.Auth | clone.go:60-90 | a cached key set is returned without touching the file system; otherwise, in order: the path error, "not found rsa path" for a missing file, the read error, or the parse result; a parsed key set is cached, and nothing is cached on failure |
| Cloners.Package.Default | clone.go:34-39 | the first call makes and keeps a cloner from its options; later calls return that same cloner and ignore theirs |

## Left out

- Network, transport and the engine's internals are not modelled: cloning, fetching, pushing and pulling objects, checkout of files, and commit creation. Their outcomes are parameters.
- The engine's predicates are taken as given: reference-name `Short`/`IsBranch`/`IsTag`/`IsRemote`, status cleanliness, the ignore-pattern matcher, hash parsing, and the hidden-path test.
- `RefSpecSyntax.Parse` is git's ref-spec syntax as stated by git-push(1), not the engine's own parser.
- File-system I/O is abstracted. The home directory, file existence, reading the key file and key parsing in `Auth` are parameters. For `Ignore`, the old `.gitignore` text arrives as one value with its lookup/open/read error. The `Seek` and the separate read of the raw bytes after the scan are not modelled separately.
- Repositories.Repository.Ignore: Go's line scanner stops at lines longer than 64 KiB, and the model has no such limit.
- Cloners.Join: `filepath.Join` also cleans the result (`.`/`..`, repeated slashes), and that is not modelled. `IsAbs` is the Unix rule.
- Cloners.RsaKeyPath: the joined path is not cleaned, so the model keeps it textually under the home directory; the code's `filepath.Join` resolves `..` (home `/home/u` and key path `../k` give `/home/k`).
- Cloners.DefaultKeyUnderHome: with the cleaning left out, a home directory ending in `/` gives `<home>//.ssh/id_rsa` in the model, where the code gives `<home>/.ssh/id_rsa`.
- Logging output is not modelled: the logger writes, the log timestamps, Fatalln ending the process, progress writers, and the per-operation messages (`repository.print`, its deferred calls). Only `LogLine`'s argument shaping is.
- The logger is an identity only (`Configs.Logger`).
- `AtomicConfig`, `AtomicConfigSet`, its callback and `InstallConfigWatchDog` are global hooks outside the option logic. `NewConfig` is modelled with no watchdog installed.
- `UserName`, `UserEmail`, `Root`, `RemoveAll`, `Add`, `RewriteFile`, `Branch`, `Tag`, `CreateBranch`, `CreateTag`, `DeleteLocalBranch` and `DeleteLocalTag` are compositions of engine and file-system calls outside the core (`Add` stops at its first failing file, `RewriteFile` and `CreateBranch` run guarded steps in sequence) and are not modelled as operations. Their name resolution, `getHash`, the handle constructors and the handle `Delete` steps are.
- `clone`, `Clone`, `CloneToMemory` and `checkConfig` are transport and engine configuration writes and are not modelled. Their key lookup is (`Cloner.Auth`).
- Refs.ResolveBranchName: Go also returns the empty name beside the error; the model returns only the error.
- Refs.ResolveTagName: Go also returns the empty name beside the error; the model returns only the error.
- The `Config` getters (`GetRsaPath` … `GetDepth`) are field reads and have no contract.
- Context cancellation (`context.Context`) is not modelled.

## Findings

| source | as written | input that shows it | evidently intended | confidence | as-written member | corrected member |
|---|---|---|---|---|---|---|
| repository.go:444-455 | DeleteTag discards the local delete's error. The handle is then not marked deleted, so the push sends the forced update `+refs/tags/<t>:refs/tags/<t>` rather than the deletion. | a tag `v1.0.0` that exists only on the remote: the local delete fails with ErrTagNotFound | push `:refs/tags/v1.0.0` whatever the local outcome | medium; not executed | Repositories.DeleteTagOfRemoteOnlyTagForcePushes | Repositories.IntendedDeleteTagSpecs |
| repository.go:372-386 | DeleteBranch discards the local delete's error. The handle is then not marked deleted, so the push carries no spec at all and the remote branch stays. | a branch `feature` with no local configuration entry: DeleteBranch on the engine fails with ErrBranchNotFound | push `:refs/heads/feature` whatever the local outcome | medium; not executed | Repositories.DeleteBranchWithoutLocalEntryPushesNoDeletion | Repositories.IntendedDeleteBranchSpecs |

=== FILE: branch.dfy ===
/** Branch handles (branch.go): a branch's push specs and its three-step
    local delete. */
module Branches {
  import opened Errors
  import opened Refs
  import opened RefSpecSyntax
  import opened Tags

  /** branch.getRefSpecs: the deletion `:refs/heads/<name>` when the branch
      is pending deletion; no spec at all otherwise (the engine then pushes
      with its default spec). */
  function BranchRefSpecs(name: string, deleted: bool): (r: seq<string>)
    ensures |r| == (if deleted then 1 else 0)
    ensures deleted && ':' !in name ==> Parse(r[0]) == Some(RefSpec(false, "", BranchReferenceName(name)))
  {
    var bn := BranchReferenceName(name);
    QualifiedBranchDeletionParses(name);
    if deleted then [":" + bn] else []
  }

  /** A name without `:` keeps none after qualification, so the deletion
      spec reads back as intended. */
  lemma QualifiedBranchDeletionParses(name: string)
    ensures ':' !in name ==>
      Parse(":" + BranchReferenceName(name)) == Some(RefSpec(false, "", BranchReferenceName(name)))
  {
    if ':' !in name {
      var bn := BranchReferenceName(name);
      assert ':' !in bn by {
        assert bn == name || bn == BranchPrefix + name;
      }
      ParseDeletion(bn);
    }
  }

  /** The deletion spec names the qualified branch, so a short and a full
      branch name give the same specs. */
  lemma ShortAndFullBranchNameSameSpecs(name: string, deleted: bool)
    ensures BranchRefSpecs(name, deleted) == BranchRefSpecs(BranchReferenceName(name), deleted)
  {
  }

  /** An engine call made by a local branch delete, in the order made. */
  datatype LocalCall = DeleteBranchCall(name: string) | RemoveReferenceCall(ref: string)

  /** A branch handle: the base and the branch's configuration entry (its
      short name and the reference it merges). */
  class Branch {
    const base: Base
    const name: string
    const merge: string

    /** newBranch: a fresh base, not pending deletion, whose spec builder is
        this branch's BranchRefSpecs. */
    constructor (name: string, merge: string)
      ensures this.name == name && this.merge == merge
      ensures fresh(base) && !base.isDeleted
      ensures forall d :: base.getRefSpecs(d) == BranchRefSpecs(name, d)
    {
      this.name := name;
      this.merge := merge;
      base := new Base(d => BranchRefSpecs(name, d));
    }

    /** branch.Delete: removes the configuration entry, then the merge
        reference, then marks the handle pending deletion; each step runs
        only when the one before succeeded, and the first error is
        returned with the flag unchanged. */
    method Delete(deleteBranch: string -> GoError, removeReference: string -> GoError)
      returns (err: GoError, calls: seq<LocalCall>)
      modifies base`isDeleted
      ensures deleteBranch(name).Some? ==>
        err == deleteBranch(name) && calls == [DeleteBranchCall(name)]
      ensures deleteBranch(name).None? ==>
        err == removeReference(merge) && calls == [DeleteBranchCall(name), RemoveReferenceCall(merge)]
      ensures err.None? ==> base.isDeleted
      ensures err.Some? ==> base.isDeleted == old(base.isDeleted)
    {
      err := deleteBranch(name);
      calls := [DeleteBranchCall(name)];
      if err.None? {
        err := removeReference(merge);
        calls := calls + [RemoveReferenceCall(merge)];
      }
      if err.None? {
        err := base.Delete();
      }
    }
  }
}

=== FILE: clone.dfy ===
/** The cloner (clone.go): the shape of its log lines, where the SSH key
    is looked for, the cached key set, and the package-wide default
    cloner. The home directory, the file system and key parsing are
    parameters. */
module Cloners {
  import opened Errors
  import opened Refs
  import opened Configs

  const LogPrefix := "[git]"
  const SuccessLogFlag := "\U{2615}\U{FE0F}\U{2615}\U{FE0F}\U{2615}\U{FE0F}, success!"
  const FailedLogFlag := "\U{1F6AB}\U{1F6AB}\U{1F6AB}, failed!"

  /** One argument of a log call: a string, an error, or anything else
      (compared by identity). */
  datatype LogValue = Text(text: string) | ErrorValue(err: Error) | Other(id: nat)

  /** Println for a success line; Fatalln (which ends the process) for a
      failure line. */
  datatype LogCall = Println | Fatalln

  /** strings.TrimSuffix. */
  function TrimSuffix(s: string, suffix: string): (r: string)
    ensures |suffix| <= |s| && s[|s| - |suffix|..] == suffix ==> r + suffix == s
    ensures !(|suffix| <= |s| && s[|s| - |suffix|..] == suffix) ==> r == s
  {
    if |suffix| <= |s| && s[|s| - |suffix|..] == suffix then
      assert s == s[..|s| - |suffix|] + s[|s| - |suffix|..];
      s[..|s| - |suffix|]
    else s
  }

  /** TrimSuffix removes exactly one occurrence. */
  lemma TrimSuffixOnce(s: string, suffix: string)
    ensures TrimSuffix(s + suffix, suffix) == s
  {
    assert (s + suffix)[|s|..] == suffix;
    assert (s + suffix)[..|s|] == s;
  }

  /** print: which call is made and with which arguments. A success line
      is the prefix, the success flag and the arguments, with one trailing
      comma dropped from the last one when it is a string; a failure line
      is the prefix, the failure flag, the arguments, "Error:" and the
      error. */
  function LogLine(err: GoError, v: seq<LogValue>): (r: (LogCall, seq<LogValue>))
    ensures r.0 == Fatalln <==> err.Some?
    ensures err.Some? ==>
      && |r.1| == |v| + 4
      && r.1[..2] == [Text(LogPrefix), Text(FailedLogFlag)]
      && r.1[2..|v| + 2] == v
      && r.1[|v| + 2..] == [Text("Error:"), ErrorValue(err.value)]
    ensures err.None? ==> |r.1| == |v| + 2 && r.1[..2] == [Text(LogPrefix), Text(SuccessLogFlag)]
    ensures err.None? ==> forall i :: 2 <= i < |r.1| - 1 ==> r.1[i] == v[i - 2]
    ensures err.None? && v != [] && !v[|v| - 1].Text? ==> r.1[|r.1| - 1] == v[|v| - 1]
    ensures err.None? && v != [] && v[|v| - 1].Text? ==>
      r.1[|r.1| - 1].Text? && r.1[|r.1| - 1].text + "," in {v[|v| - 1].text, v[|v| - 1].text + ","}
    ensures err.None? && v == [] ==> r.1 == [Text(LogPrefix), Text(SuccessLogFlag)]
  {
    if err.Some? then
      (Fatalln, [Text(LogPrefix), Text(FailedLogFlag)] + v + [Text("Error:"), ErrorValue(err.value)])
    else
      var w := [Text(LogPrefix), Text(SuccessLogFlag)] + v;
      var last := w[|w| - 1];
      assert v == [] ==> last == Text(SuccessLogFlag);
      (Println, if last.Text? then w[..|w| - 1] + [Text(TrimSuffix(last.text, ","))] else w)
  }

  /** A success line of a message ending "…," prints it without the comma,
      and the other arguments untouched. */
  lemma SuccessLineDropsTrailingComma(v: seq<LogValue>, s: string)
    ensures LogLine(None, v + [Text(s + ",")]) == (Println, [Text(LogPrefix), Text(SuccessLogFlag)] + v + [Text(s)])
  {
    var w := [Text(LogPrefix), Text(SuccessLogFlag)] + (v + [Text(s + ",")]);
    assert w[..|w| - 1] == [Text(LogPrefix), Text(SuccessLogFlag)] + v;
    TrimSuffixOnce(s, ",");
  }

  /** filepath.IsAbs on Unix. */
  predicate IsAbs(p: string)
  {
    |p| > 0 && p[0] == '/'
  }

  /** filepath.Join of two elements, empty elements ignored. */
  function Join(dir: string, p: string): (r: string)
    ensures dir == [] ==> r == p
    ensures dir != [] && p == [] ==> r == dir
    ensures dir != [] && p != [] ==> r == dir + "/" + p
  {
    if dir == [] then p else if p == [] then dir else dir + "/" + p
  }

  /** Where auth looks for the private key: an absolute path as is, a
      relative one under the home directory, whose lookup error is
      returned when it fails. */
  function RsaKeyPath(rsaPath: string, home: Result<string>): (r: Result<string>)
    ensures IsAbs(rsaPath) ==> r == Ok(rsaPath)
    ensures !IsAbs(rsaPath) && home.Fail? ==> r == Fail(home.err)
    ensures !IsAbs(rsaPath) && home.Ok? ==> r.Ok? && home.value <= r.value
    ensures !IsAbs(rsaPath) && home.Ok? && rsaPath == [] ==> r.value == home.value
    ensures !IsAbs(rsaPath) && home.Ok? && home.value != [] && rsaPath != [] ==>
      r.value == home.value + "/" + rsaPath
  {
    if IsAbs(rsaPath) then Ok(rsaPath)
    else if home.Fail? then Fail(home.err)
    else
      Ok(Join(home.value, rsaPath))
  }

  /** The default key path is taken under the home directory. */
  lemma DefaultKeyUnderHome(home: string)
    requires home != []
    ensures RsaKeyPath(DefaultValue().rsaPath, Ok(home)) == Ok(home + "/.ssh/id_rsa")
  {
    assert home + "/" + ".ssh/id_rsa" == home + "/.ssh/id_rsa";
  }

  /** A parsed SSH key set, compared by identity. */
  datatype PublicKeys = PublicKeys(id: nat)

  class Cloner {
    /** The key set auth cached, if any. */
    var publicKeys: Option<PublicKeys>
    const config: Config

    /** New: a fresh config from the options, no key set yet. */
    constructor (opts: seq<ConfigOption>)
      ensures publicKeys.None?
      ensures fresh(config)
      ensures config.Value() == ApplyAll(DefaultValue(), opts)
    {
      var cc := NewConfig(opts);
      publicKeys := None;
      config := cc;
    }

    /** auth: the cached key set if there is one; otherwise the key file
        at RsaKeyPath must exist, be read and parse, and the key set
        parsed is cached. */
    method Auth(home: Result<string>, existsFile: string -> bool, read: string -> Result<seq<byte>>,
                parse: seq<byte> -> Result<PublicKeys>)
      returns (keys: Result<PublicKeys>)
      modifies this`publicKeys
      ensures old(publicKeys).Some? ==> keys == Ok(old(publicKeys).value) && publicKeys == old(publicKeys)
      ensures old(publicKeys).None? ==>
        var path := RsaKeyPath(config.rsaPath, home);
        keys == if path.Fail? then Fail(path.err)
                else if !existsFile(path.value) then Fail(ErrRsaPathNotFound)
                else if read(path.value).Fail? then Fail(read(path.value).err)
                else parse(read(path.value).value)
      ensures old(publicKeys).None? ==> (publicKeys.Some? <==> keys.Ok?)
      ensures keys.Ok? ==> publicKeys == Some(keys.value)
    {
      if publicKeys.Some? {
        return Ok(publicKeys.value);
      }
      var path := RsaKeyPath(config.rsaPath, home);
      if path.Fail? {
        return Fail(path.err);
      }
      if !existsFile(path.value) {
        return Fail(ErrRsaPathNotFound);
      }
      var buf := read(path.value);
      if buf.Fail? {
        return Fail(buf.err);
      }
      keys := parse(buf.value);
      publicKeys := if keys.Ok? then Some(keys.value) else None;
    }
  }

  /** The package state: the default cloner, made on first use. */
  class Package {
    var defaultCloner: Cloner?

    constructor ()
      ensures defaultCloner == null
    {
      defaultCloner := null;
    }

    /** Default: the first call makes the cloner from its options; later
        calls return that cloner and ignore theirs. */
    method Default(opts: seq<ConfigOption>) returns (c: Cloner)
      modifies this`defaultCloner
      ensures defaultCloner == c
      ensures old(defaultCloner) != null ==> c == old(defaultCloner)
      ensures old(defaultCloner) == null ==>
        fresh(c) && fresh(c.config) && c.publicKeys.None? && c.config.Value() == ApplyAll(DefaultValue(), opts)
    {
      if defaultCloner == null {
        defaultCloner := new Cloner(opts);
      }
      c := defaultCloner;
    }
  }
}

=== FILE: config.dfy ===
/** The generated configuration (gen_config_optiongen.go): five settings,
    one functional option per setting that sets it and returns the option
    undoing it, the defaults, and NewConfig/ApplyOption. Options are data
    here: `ConfigOption` names the setting and carries its new value, and
    applying one is `Set`. */
module Configs {

  /** A logger is compared by identity only: none, the standard-output
      logger the defaults install, or one supplied by the caller. */
  datatype Logger = NilLogger | StdoutLogger | CustomLogger(id: nat)

  /** The five settings of a Config. */
  datatype ConfigValue = ConfigValue(rsaPath: string, logger: Logger, userName: string,
                                     userEmail: string, depth: int)

  /** A functional option: which setting it writes, and the value. */
  datatype ConfigOption =
    | WithRsaPath(rsaPath: string)
    | WithLogger(logger: Logger)
    | WithUserName(userName: string)
    | WithUserEmail(userEmail: string)
    | WithDepth(depth: int)

  datatype Field = RsaPathField | LoggerField | UserNameField | UserEmailField | DepthField

  datatype FieldValue = StrValue(s: string) | LoggerValue(l: Logger) | IntValue(i: int)

  /** The zero Config newDefaultConfig starts from. */
  const ZeroValue := ConfigValue("", NilLogger, "", "", 0)

  /** The options newDefaultConfig applies, in order. */
  const DefaultOptions := [WithRsaPath(".ssh/id_rsa"), WithLogger(StdoutLogger), WithUserName(""),
                           WithUserEmail(""), WithDepth(1)]

  function Get(c: ConfigValue, f: Field): FieldValue
  {
    match f
    case RsaPathField => StrValue(c.rsaPath)
    case LoggerField => LoggerValue(c.logger)
    case UserNameField => StrValue(c.userName)
    case UserEmailField => StrValue(c.userEmail)
    case DepthField => IntValue(c.depth)
  }

  function FieldOf(o: ConfigOption): Field
  {
    match o
    case WithRsaPath(_) => RsaPathField
    case WithLogger(_) => LoggerField
    case WithUserName(_) => UserNameField
    case WithUserEmail(_) => UserEmailField
    case WithDepth(_) => DepthField
  }

  function ValueOf(o: ConfigOption): FieldValue
  {
    match o
    case WithRsaPath(v) => StrValue(v)
    case WithLogger(v) => LoggerValue(v)
    case WithUserName(v) => StrValue(v)
    case WithUserEmail(v) => StrValue(v)
    case WithDepth(v) => IntValue(v)
  }

  /** Two configs that agree on every setting are the same config. */
  lemma FieldsDetermine(c: ConfigValue, d: ConfigValue)
    requires forall f :: Get(c, f) == Get(d, f)
    ensures c == d
  {
    assert Get(c, RsaPathField) == Get(d, RsaPathField);
    assert Get(c, LoggerField) == Get(d, LoggerField);
    assert Get(c, UserNameField) == Get(d, UserNameField);
    assert Get(c, UserEmailField) == Get(d, UserEmailField);
    assert Get(c, DepthField) == Get(d, DepthField);
  }

  /** Applying an option: its own setting takes its value, the other four
      are unchanged. */
  function Set(c: ConfigValue, o: ConfigOption): (r: ConfigValue)
    ensures Get(r, FieldOf(o)) == ValueOf(o)
    ensures forall f :: f != FieldOf(o) ==> Get(r, f) == Get(c, f)
  {
    match o
    case WithRsaPath(v) => c.(rsaPath := v)
    case WithLogger(v) => c.(logger := v)
    case WithUserName(v) => c.(userName := v)
    case WithUserEmail(v) => c.(userEmail := v)
    case WithDepth(v) => c.(depth := v)
  }

  /** The option an option returns: the same setting, with the value it had
      before. */
  function Undo(c: ConfigValue, o: ConfigOption): (u: ConfigOption)
    ensures FieldOf(u) == FieldOf(o)
    ensures ValueOf(u) == Get(c, FieldOf(o))
  {
    match o
    case WithRsaPath(_) => WithRsaPath(c.rsaPath)
    case WithLogger(_) => WithLogger(c.logger)
    case WithUserName(_) => WithUserName(c.userName)
    case WithUserEmail(_) => WithUserEmail(c.userEmail)
    case WithDepth(_) => WithDepth(c.depth)
  }

  /** The returned option undoes the option that returned it. */
  lemma SetThenUndo(c: ConfigValue, o: ConfigOption)
    ensures Set(Set(c, o), Undo(c, o)) == c
  {
    var r := Set(Set(c, o), Undo(c, o));
    forall f ensures Get(r, f) == Get(c, f) {
    }
    FieldsDetermine(r, c);
  }

  /** Options applied left to right. */
  function ApplyAll(c: ConfigValue, opts: seq<ConfigOption>): (r: ConfigValue)
    ensures opts != [] ==> Get(r, FieldOf(opts[|opts| - 1])) == ValueOf(opts[|opts| - 1])
    ensures forall f :: !Writes(opts, f) ==> Get(r, f) == Get(c, f)
    decreases |opts|
  {
    if opts == [] then c
    else
      var init := opts[..|opts| - 1];
      assert forall i :: 0 <= i < |init| ==> init[i] == opts[i];
      Set(ApplyAll(c, init), opts[|opts| - 1])
  }

  /** The options ApplyOption returns: each one's undo, taken on the config
      as it was just before that option, in application order. */
  function UndoList(c: ConfigValue, opts: seq<ConfigOption>): (r: seq<ConfigOption>)
    ensures |r| == |opts|
    ensures forall i :: 0 <= i < |r| ==> FieldOf(r[i]) == FieldOf(opts[i])
    decreases |opts|
  {
    if opts == [] then []
    else
      var init := opts[..|opts| - 1];
      UndoList(c, init) + [Undo(ApplyAll(c, init), opts[|opts| - 1])]
  }

  /** The value the last option writing `f` gives it, or `dflt` if none does. */
  function LastValue(opts: seq<ConfigOption>, f: Field, dflt: FieldValue): FieldValue
    decreases |opts|
  {
    if opts == [] then dflt
    else if FieldOf(opts[|opts| - 1]) == f then ValueOf(opts[|opts| - 1])
    else LastValue(opts[..|opts| - 1], f, dflt)
  }

  predicate Writes(opts: seq<ConfigOption>, f: Field)
  {
    exists i :: 0 <= i < |opts| && FieldOf(opts[i]) == f
  }

  predicate DistinctFields(opts: seq<ConfigOption>)
  {
    forall i, j :: 0 <= i < j < |opts| ==> FieldOf(opts[i]) != FieldOf(opts[j])
  }

  /** Last option wins: each setting ends with the value of the last option
      writing it, or keeps its value when no option does. */
  lemma {:induction false} ApplyAllLastWins(c: ConfigValue, opts: seq<ConfigOption>, f: Field)
    ensures Get(ApplyAll(c, opts), f) == LastValue(opts, f, Get(c, f))
    decreases |opts|
  {
    if opts != [] {
      ApplyAllLastWins(c, opts[..|opts| - 1], f);
    }
  }

  lemma {:induction false} LastValueUnwritten(opts: seq<ConfigOption>, f: Field, dflt: FieldValue)
    requires !Writes(opts, f)
    ensures LastValue(opts, f, dflt) == dflt
    decreases |opts|
  {
    if opts != [] {
      var init := opts[..|opts| - 1];
      assert forall i :: 0 <= i < |init| ==> init[i] == opts[i];
      assert !Writes(init, f);
      assert FieldOf(opts[|opts| - 1]) != f;
      LastValueUnwritten(init, f, dflt);
    }
  }

  lemma ApplyAllConcat(c: ConfigValue, a: seq<ConfigOption>, b: seq<ConfigOption>)
    ensures ApplyAll(c, a + b) == ApplyAll(ApplyAll(c, a), b)
    decreases |b|
  {
    if b != [] {
      assert (a + b)[..|a + b| - 1] == a + b[..|b| - 1];
      ApplyAllConcat(c, a, b[..|b| - 1]);
    } else {
      assert a + b == a;
    }
  }

  function Reverse<T>(s: seq<T>): (r: seq<T>)
    ensures |r| == |s|
    decreases |s|
  {
    if s == [] then [] else [s[|s| - 1]] + Reverse(s[..|s| - 1])
  }

  /** Applying the returned options in reverse order always restores the
      config ApplyOption started from. */
  lemma {:induction false} ReverseUndoRestores(c: ConfigValue, opts: seq<ConfigOption>)
    ensures ApplyAll(ApplyAll(c, opts), Reverse(UndoList(c, opts))) == c
    decreases |opts|
  {
    if opts == [] {
      assert Reverse(UndoList(c, opts)) == [];
    } else {
      var init := opts[..|opts| - 1];
      var o := opts[|opts| - 1];
      var mid := ApplyAll(c, init);
      var u := Undo(mid, o);
      var us := UndoList(c, init);
      assert UndoList(c, opts) == us + [u];
      assert (us + [u])[..|us + [u]| - 1] == us;
      assert Reverse(us + [u]) == [u] + Reverse(us);
      ApplyAllConcat(Set(mid, o), [u], Reverse(us));
      assert ApplyAll(Set(mid, o), [u]) == Set(Set(mid, o), u);
      SetThenUndo(mid, o);
      ReverseUndoRestores(c, init);
    }
  }

  lemma {:induction false} UndoListLastValue(c: ConfigValue, opts: seq<ConfigOption>, f: Field, dflt: FieldValue)
    requires DistinctFields(opts)
    ensures LastValue(UndoList(c, opts), f, dflt) == if Writes(opts, f) then Get(c, f) else dflt
    decreases |opts|
  {
    if opts != [] {
      var init := opts[..|opts| - 1];
      var o := opts[|opts| - 1];
      UndoListSnoc(c, opts, f, dflt);
      DistinctInit(opts);
      WritesSnoc(opts, f);
      if FieldOf(o) == f {
        ApplyAllLastWins(c, init, f);
        LastValueUnwritten(init, f, Get(c, f));
      } else {
        UndoListLastValue(c, init, f, dflt);
      }
    }
  }

  /** The last undo option answers for its own setting; the others are
      answered by the earlier undo options. */
  lemma UndoListSnoc(c: ConfigValue, opts: seq<ConfigOption>, f: Field, dflt: FieldValue)
    requires opts != []
    ensures var init := opts[..|opts| - 1];
            var o := opts[|opts| - 1];
            LastValue(UndoList(c, opts), f, dflt)
            == if FieldOf(o) == f then Get(ApplyAll(c, init), f) else LastValue(UndoList(c, init), f, dflt)
  {
    var init := opts[..|opts| - 1];
    var us := UndoList(c, init);
    var u := Undo(ApplyAll(c, init), opts[|opts| - 1]);
    assert UndoList(c, opts) == us + [u];
    assert (us + [u])[..|us + [u]| - 1] == us;
  }

  lemma DistinctInit(opts: seq<ConfigOption>)
    requires opts != [] && DistinctFields(opts)
    ensures DistinctFields(opts[..|opts| - 1])
    ensures !Writes(opts[..|opts| - 1], FieldOf(opts[|opts| - 1]))
  {
    var init := opts[..|opts| - 1];
    assert forall i :: 0 <= i < |init| ==> init[i] == opts[i];
  }

  lemma WritesSnoc(opts: seq<ConfigOption>, f: Field)
    requires opts != []
    ensures Writes(opts, f) <==> Writes(opts[..|opts| - 1], f) || FieldOf(opts[|opts| - 1]) == f
  {
    var init := opts[..|opts| - 1];
    assert forall i :: 0 <= i < |init| ==> init[i] == opts[i];
    if Writes(opts, f) && FieldOf(opts[|opts| - 1]) != f {
      var i :| 0 <= i < |opts| && FieldOf(opts[i]) == f;
      assert i < |init| && FieldOf(init[i]) == f;
    }
  }

  /** The usage the source documents, `ApplyOption(old...)` with the
      returned options in application order, restores the config when no
      two options write the same setting. */
  lemma ForwardUndoRestoresDistinct(c: ConfigValue, opts: seq<ConfigOption>)
    requires DistinctFields(opts)
    ensures ApplyAll(ApplyAll(c, opts), UndoList(c, opts)) == c
  {
    var d := ApplyAll(c, opts);
    var r := ApplyAll(d, UndoList(c, opts));
    forall f ensures Get(r, f) == Get(c, f) {
      ApplyAllLastWins(d, UndoList(c, opts), f);
      UndoListLastValue(c, opts, f, Get(d, f));
      if !Writes(opts, f) {
        ApplyAllLastWins(c, opts, f);
        LastValueUnwritten(opts, f, Get(c, f));
      }
    }
    FieldsDetermine(r, c);
  }

  /** It does not when an option repeats a setting: depth 1, then
      ApplyOption(WithDepth(2), WithDepth(3)), then ApplyOption(old...)
      leaves depth 2. */
  lemma ForwardUndoRepeatedSetting()
    ensures var c := ZeroValue.(depth := 1);
            var opts := [WithDepth(2), WithDepth(3)];
            ApplyAll(ApplyAll(c, opts), UndoList(c, opts)).depth == 2
  {
    var c := ZeroValue.(depth := 1);
    var opts := [WithDepth(2), WithDepth(3)];
    assert opts[..1] == [WithDepth(2)];
    assert [WithDepth(2)][..0] == [];
    assert ApplyAll(c, [WithDepth(2)]) == c.(depth := 2);
    assert ApplyAll(c, opts) == c.(depth := 3);
    assert UndoList(c, [WithDepth(2)]) == [WithDepth(1)];
    var us := UndoList(c, opts);
    assert us == [WithDepth(1), WithDepth(2)];
    assert us[..1] == [WithDepth(1)];
    assert ApplyAll(c.(depth := 3), [WithDepth(1)]) == c;
  }

  /** newDefaultConfig's settings. */
  function DefaultValue(): (r: ConfigValue)
    ensures r == ConfigValue(".ssh/id_rsa", StdoutLogger, "", "", 1)
  {
    DefaultOptionsApplied();
    ApplyAll(ZeroValue, DefaultOptions)
  }

  lemma DefaultOptionsApplied()
    ensures ApplyAll(ZeroValue, DefaultOptions) == ConfigValue(".ssh/id_rsa", StdoutLogger, "", "", 1)
  {
    var d := DefaultOptions;
    assert d[..5] == d;
    assert d[..5][..4] == d[..4];
    assert d[..4][..3] == d[..3];
    assert d[..3][..2] == d[..2];
    assert d[..2][..1] == d[..1];
    assert d[..1][..0] == [];
    assert ApplyAll(ZeroValue, d[..1]) == ZeroValue.(rsaPath := ".ssh/id_rsa");
    assert ApplyAll(ZeroValue, d[..2]) == ZeroValue.(rsaPath := ".ssh/id_rsa", logger := StdoutLogger);
    assert ApplyAll(ZeroValue, d[..3]) == ZeroValue.(rsaPath := ".ssh/id_rsa", logger := StdoutLogger);
    assert ApplyAll(ZeroValue, d[..4]) == ZeroValue.(rsaPath := ".ssh/id_rsa", logger := StdoutLogger);
  }

  /** A Config: the five settings, updated in place by options. */
  class Config {
    var rsaPath: string
    var logger: Logger
    var userName: string
    var userEmail: string
    var depth: int

    function Value(): ConfigValue
      reads this
    {
      ConfigValue(rsaPath, logger, userName, userEmail, depth)
    }

    /** `&Config{}`. */
    constructor ()
      ensures Value() == ZeroValue
    {
      rsaPath, logger, userName, userEmail, depth := "", NilLogger, "", "", 0;
    }

    /** Calling an option on the config: writes its setting and returns
        the option restoring the old value. */
    method Apply(o: ConfigOption) returns (undo: ConfigOption)
      modifies this
      ensures Value() == Set(old(Value()), o)
      ensures undo == Undo(old(Value()), o)
    {
      undo := Undo(Value(), o);
      match o
      case WithRsaPath(v) => rsaPath := v;
      case WithLogger(v) => logger := v;
      case WithUserName(v) => userName := v;
      case WithUserEmail(v) => userEmail := v;
      case WithDepth(v) => depth := v;
    }

    /** ApplyOption: applies the options in order and returns their undo
        options in the same order. */
    method ApplyOption(opts: seq<ConfigOption>) returns (previous: seq<ConfigOption>)
      modifies this
      ensures Value() == ApplyAll(old(Value()), opts)
      ensures previous == UndoList(old(Value()), opts)
    {
      previous := [];
      for i := 0 to |opts|
        invariant Value() == ApplyAll(old(Value()), opts[..i])
        invariant previous == UndoList(old(Value()), opts[..i])
      {
        assert opts[..i + 1][..i] == opts[..i];
        var undo := Apply(opts[i]);
        previous := previous + [undo];
      }
      assert opts[..|opts|] == opts;
    }

    function GetRsaPath(): string reads this { rsaPath }
    function GetLogger(): Logger reads this { logger }
    function GetUserName(): string reads this { userName }
    function GetUserEmail(): string reads this { userEmail }
    function GetDepth(): int reads this { depth }
  }

  /** newDefaultConfig: the zero config with the default options applied. */
  method NewDefaultConfig() returns (cc: Config)
    ensures fresh(cc)
    ensures cc.Value() == DefaultValue()
  {
    cc := new Config();
    var _ := cc.ApplyOption(DefaultOptions);
  }

  /** NewConfig: the defaults, then the caller's options in order. */
  method NewConfig(opts: seq<ConfigOption>) returns (cc: Config)
    ensures fresh(cc)
    ensures cc.Value() == ApplyAll(DefaultValue(), opts)
  {
    cc := NewDefaultConfig();
    var _ := cc.ApplyOption(opts);
  }
}

=== FILE: errors.dfy ===
/** Errors of the façade (error.go) and the normaliser that turns two
    benign engine outcomes into success. */
module Errors {

  datatype Option<+T> = None | Some(value: T)

  /** An error value. The named alternatives are the engine's sentinel
      errors that error.go re-exports; `ErrCurrentWorktreeNotClean` and
      `ErrRsaPathNotFound` are the two errors the façade makes itself
      (repository.go and clone.go); `ErrOther` is any other error value. */
  datatype Error =
    | NoErrAlreadyUpToDate
    | ErrDeleteRefNotSupported
    | ErrForceNeeded
    | ErrExactSHA1NotSupported
    | ErrBranchExists
    | ErrBranchNotFound
    | ErrTagExists
    | ErrTagNotFound
    | ErrFetching
    | ErrInvalidReference
    | ErrRepositoryNotExists
    | ErrRepositoryIncomplete
    | ErrRepositoryAlreadyExists
    | ErrRemoteNotFound
    | ErrRemoteExists
    | ErrAnonymousRemoteName
    | ErrWorktreeNotProvided
    | ErrIsBareRepository
    | ErrUnableToResolveCommit
    | ErrPackedObjectsNotSupported
    | ErrWorktreeNotClean
    | ErrSubmoduleNotFound
    | ErrUnstagedChanges
    | ErrGitModulesSymlink
    | ErrNonFastForwardUpdate
    | ErrObjectNotFound
    | ErrInvalidType
    | ErrReferenceNotFound
    | ErrCurrentWorktreeNotClean
    | ErrRsaPathNotFound
    | ErrOther(message: string)

  /** A Go `error`: `None` is nil. */
  type GoError = Option<Error>

  /** A Go pair `(T, error)` whose two halves are never both meaningful. */
  datatype Result<+T> = Ok(value: T) | Fail(err: Error)

  /** The two engine outcomes that pull and push treat as "nothing to do". */
  predicate IsBenign(e: Error)
  {
    e == NoErrAlreadyUpToDate || e == ErrNonFastForwardUpdate
  }

  /** checkErr: nil for the two benign sentinels, the error itself otherwise. */
  function CheckErr(err: GoError): (r: GoError)
    ensures r.None? <==> (err.None? || IsBenign(err.value))
    ensures r.Some? ==> r == err
  {
    if err == Some(NoErrAlreadyUpToDate) || err == Some(ErrNonFastForwardUpdate) then None else err
  }

  /** Normalising twice is normalising once. */
  lemma CheckErrIdempotent(err: GoError)
    ensures CheckErr(CheckErr(err)) == CheckErr(err)
  {
  }

  /** Every error other than the two sentinels survives the normaliser. */
  lemma CheckErrKeepsOthers(e: Error)
    requires e != NoErrAlreadyUpToDate && e != ErrNonFastForwardUpdate
    ensures CheckErr(Some(e)) == Some(e)
  {
  }
}

=== FILE: gitignore.dfy ===
/** The text transformation behind `Ignore` (repository.go): the lines of
    the old `.gitignore` are scanned as Go's line scanner splits them, the
    non-blank lines that are not comments are collected, and every argument
    not among them is appended on a line of its own, followed by a final
    newline. Reading and writing the file are not part of this module. */
module GitIgnore {
  import opened Strings

  const CommentPrefix := "#"

  /** White space as Go's unicode.IsSpace sees it. */
  predicate IsSpace(c: char)
  {
    || c == ' ' || c == '\t' || c == '\n' || c == '\r'
    || c == '\U{000B}' || c == '\U{000C}' || c == '\U{0085}' || c == '\U{00A0}'
    || c == '\U{1680}' || ('\U{2000}' <= c <= '\U{200A}')
    || c == '\U{2028}' || c == '\U{2029}' || c == '\U{202F}' || c == '\U{205F}' || c == '\U{3000}'
  }

  /** The line trims to nothing. */
  predicate IsBlank(s: string)
  {
    forall i :: 0 <= i < |s| ==> IsSpace(s[i])
  }

  /** A line that counts as an existing pattern: not a comment, not blank. */
  predicate IsPatternLine(s: string)
    ensures IsPatternLine(s) ==> s != [] && s[0] != '#'
    ensures s != [] && s[0] != '#' && !IsSpace(s[0]) ==> IsPatternLine(s)
  {
    !(CommentPrefix <= s) && !IsBlank(s)
  }

  /** The scanner drops one carriage return before a line's end. */
  function DropCR(s: string): (r: string)
    ensures r <= s
  {
    if |s| > 0 && s[|s| - 1] == '\r' then s[..|s| - 1] else s
  }

  /** The lines Go's line scanner yields: split at each newline, one
      trailing carriage return dropped per line, and no empty last line
      after a final newline. */
  function ScanLines(s: string): (r: seq<string>)
    ensures r == [] <==> s == []
    decreases |s|
  {
    if s == [] then []
    else
      var i := IndexOf(s, '\n');
      if i == |s| then [DropCR(s)] else [DropCR(s[..i])] + ScanLines(s[i + 1..])
  }

  /** The patterns already present: the set `content` the scan builds. */
  function ExistingPatterns(text: string): (r: set<string>)
    ensures forall l :: l in r ==> IsPatternLine(l)
    ensures text == [] ==> r == {}
  {
    set l | l in ScanLines(text) && IsPatternLine(l)
  }

  /** No scanned line, and so no existing pattern, holds a line break. */
  lemma {:induction false} ScanLinesHaveNoBreak(s: string)
    ensures forall k :: 0 <= k < |ScanLines(s)| ==> '\n' !in ScanLines(s)[k]
    ensures forall l :: l in ExistingPatterns(s) ==> '\n' !in l
    decreases |s|
  {
    if s != [] {
      var i := IndexOf(s, '\n');
      if i < |s| {
        ScanLinesHaveNoBreak(s[i + 1..]);
        assert '\n' !in s[..i];
      }
    }
  }

  /** What the append loop adds: a newline and the pattern, for every
      argument not already present, repeated arguments each time. */
  function Appended(existing: set<string>, patterns: seq<string>): string
  {
    if patterns == [] then ""
    else
      var p := patterns[|patterns| - 1];
      Appended(existing, patterns[..|patterns| - 1]) + (if p in existing then "" else "\n" + p)
  }

  /** The new `.gitignore` text: the old text, the appended patterns, and a
      final newline. */
  function MergeIgnore(text: string, patterns: seq<string>): (r: string)
    ensures text <= r
    ensures |r| > 0 && r[|r| - 1] == '\n'
  {
    text + Appended(ExistingPatterns(text), patterns) + "\n"
  }

  /** The arguments the append loop keeps, in order. */
  function Kept(existing: set<string>, patterns: seq<string>): seq<string>
  {
    if patterns == [] then []
    else
      var p := patterns[|patterns| - 1];
      Kept(existing, patterns[..|patterns| - 1]) + (if p in existing then [] else [p])
  }

  /** The kept arguments are exactly the arguments not already present. */
  lemma {:induction false} KeptMembers(existing: set<string>, patterns: seq<string>)
    ensures forall q :: q in Kept(existing, patterns) <==> q in patterns && q !in existing
  {
    if patterns != [] {
      var p := patterns[|patterns| - 1];
      var init := patterns[..|patterns| - 1];
      assert patterns == init + [p];
      KeptMembers(existing, init);
    }
  }

  /** Each string followed by a newline. */
  function Terminated(lines: seq<string>): (r: string)
    ensures r == [] || r[|r| - 1] == '\n'
  {
    if lines == [] then ""
    else Terminated(lines[..|lines| - 1]) + lines[|lines| - 1] + "\n"
  }

  function MapDropCR(lines: seq<string>): (r: seq<string>)
    ensures |r| == |lines|
    ensures forall i :: 0 <= i < |lines| ==> r[i] == DropCR(lines[i])
  {
    seq(|lines|, i requires 0 <= i < |lines| => DropCR(lines[i]))
  }

  /** The appended text and final newline are the kept arguments, each on a
      line of its own, after one newline. */
  lemma {:induction false} AppendedShape(existing: set<string>, patterns: seq<string>)
    ensures Appended(existing, patterns) + "\n" == "\n" + Terminated(Kept(existing, patterns))
  {
    if patterns != [] {
      var p := patterns[|patterns| - 1];
      var init := patterns[..|patterns| - 1];
      var k := Kept(existing, init);
      AppendedShape(existing, init);
      if p in existing {
        calc {
          Appended(existing, patterns) + "\n";
          { assert Appended(existing, patterns) == Appended(existing, init) + ""; }
          Appended(existing, init) + "\n";
          "\n" + Terminated(k);
          { assert Kept(existing, patterns) == k + [];
            assert k + [] == k; }
          "\n" + Terminated(Kept(existing, patterns));
        }
      } else {
        assert Kept(existing, patterns) == k + [p];
        assert (k + [p])[..|k|] == k;
        calc {
          Appended(existing, patterns) + "\n";
          (Appended(existing, init) + ("\n" + p)) + "\n";
          (Appended(existing, init) + "\n") + (p + "\n");
          ("\n" + Terminated(k)) + (p + "\n");
          "\n" + (Terminated(k) + p + "\n");
          "\n" + Terminated(k + [p]);
        }
      }
    }
  }

  /** The merged text is the old text and a newline, then the kept
      arguments, each followed by a newline. */
  lemma MergeShape(text: string, patterns: seq<string>)
    ensures MergeIgnore(text, patterns)
            == (text + "\n") + Terminated(Kept(ExistingPatterns(text), patterns))
  {
    var a := Appended(ExistingPatterns(text), patterns);
    var t := Terminated(Kept(ExistingPatterns(text), patterns));
    AppendedShape(ExistingPatterns(text), patterns);
    calc {
      MergeIgnore(text, patterns);
      (text + a) + "\n";
      text + (a + "\n");
      text + ("\n" + t);
      (text + "\n") + t;
    }
  }

  /** A line without a newline, a newline, and the rest: that line, then
      the rest's lines. */
  lemma ScanSplit(a: string, b: string)
    requires '\n' !in a
    ensures ScanLines(a + "\n" + b) == [DropCR(a)] + ScanLines(b)
  {
    var s := a + "\n" + b;
    assert s == a + ("\n" + b);
    IndexOfAfter(a, "\n" + b, '\n');
    assert s[..|a|] == a;
    assert s[|a| + 1..] == b;
  }

  /** Scanning text that ends at a line break, then more text, gives the
      lines of each part. */
  lemma {:induction false} ScanLinesConcat(s: string, u: string)
    requires s == [] || s[|s| - 1] == '\n'
    ensures ScanLines(s + u) == ScanLines(s) + ScanLines(u)
    decreases |s|
  {
    if s == [] {
      assert s + u == u;
    } else {
      var a, rest := SplitAtNewline(s);
      Reassociate(a, rest, u);
      ScanSplit(a, rest);
      ScanSplit(a, rest + u);
      ScanLinesConcat(rest, u);
      ConsAssoc(DropCR(a), ScanLines(rest), ScanLines(u));
    }
  }

  lemma Reassociate(a: string, rest: string, u: string)
    ensures (a + "\n" + rest) + u == a + "\n" + (rest + u)
  {
  }

  lemma ConsAssoc<T>(x: T, a: seq<T>, b: seq<T>)
    ensures [x] + (a + b) == ([x] + a) + b
  {
  }

  /** A text holding a newline is a newline-free line, a newline and the
      rest; when the text ends at a newline, so does the rest (or it is empty). */
  lemma SplitAtNewline(s: string) returns (a: string, rest: string)
    requires '\n' in s
    ensures '\n' !in a && s == a + "\n" + rest
    ensures s[|s| - 1] == '\n' ==> rest == [] || rest[|rest| - 1] == '\n'
  {
    var i := IndexOf(s, '\n');
    a, rest := s[..i], s[i + 1..];
    assert s == a + "\n" + rest;
    if rest != [] {
      assert rest[|rest| - 1] == s[|s| - 1];
    }
  }

  /** A string without a newline, followed by one, scans as one line. */
  lemma {:induction false} ScanOneLine(p: string)
    requires '\n' !in p
    ensures ScanLines(p + "\n") == [DropCR(p)]
  {
    ScanSplit(p, "");
    assert p + "\n" + "" == p + "\n";
  }

  /** Newline-free strings, each terminated, scan back as themselves (less a
      trailing carriage return). */
  lemma {:induction false} ScanTerminated(lines: seq<string>)
    requires forall q :: q in lines ==> '\n' !in q
    ensures ScanLines(Terminated(lines)) == MapDropCR(lines)
  {
    if lines != [] {
      var init := lines[..|lines| - 1];
      var q := lines[|lines| - 1];
      assert forall x :: x in init ==> x in lines;
      ScanTerminated(init);
      calc {
        ScanLines(Terminated(lines));
        { assert Terminated(lines) == Terminated(init) + (q + "\n"); }
        ScanLines(Terminated(init) + (q + "\n"));
        { ScanLinesConcat(Terminated(init), q + "\n"); }
        ScanLines(Terminated(init)) + ScanLines(q + "\n");
        { ScanOneLine(q); }
        MapDropCR(init) + [DropCR(q)];
        { MapDropCRSnoc(lines); }
        MapDropCR(lines);
      }
    }
  }

  lemma MapDropCRSnoc(lines: seq<string>)
    requires lines != []
    ensures MapDropCR(lines) == MapDropCR(lines[..|lines| - 1]) + [DropCR(lines[|lines| - 1])]
  {
  }

  /** Appending a newline to a text keeps all its lines as a prefix. */
  lemma {:induction false} ScanLinesExtend(t: string)
    ensures ScanLines(t) <= ScanLines(t + "\n")
    decreases |t|
  {
    if t != [] {
      if '\n' !in t {
        ScanOneLine(t);
        assert ScanLines(t) == [DropCR(t)];
      } else {
        var a, rest := SplitAtNewline(t);
        Reassociate(a, rest, "\n");
        ScanSplit(a, rest);
        ScanSplit(a, rest + "\n");
        ScanLinesExtend(rest);
        ConsPrefix(DropCR(a), ScanLines(rest), ScanLines(rest + "\n"));
      }
    }
  }

  lemma ConsPrefix<T>(x: T, a: seq<T>, b: seq<T>)
    requires a <= b
    ensures [x] + a <= [x] + b
  {
  }

  /** The lines of the merged text: those of the old text (with a newline
      added), then one line per kept argument. */
  lemma LinesAfterMerge(text: string, patterns: seq<string>)
    requires forall p :: p in patterns ==> '\n' !in p
    ensures ScanLines(MergeIgnore(text, patterns))
            == ScanLines(text + "\n") + MapDropCR(Kept(ExistingPatterns(text), patterns))
  {
    var k := Kept(ExistingPatterns(text), patterns);
    KeptMembers(ExistingPatterns(text), patterns);
    MergeShape(text, patterns);
    ScanLinesConcat(text + "\n", Terminated(k));
    ScanTerminated(k);
  }

  /** An old text that already ends in a newline gains an empty line: the
      append loop writes a newline before each pattern. */
  lemma TerminatedTextGainsEmptyLine(text: string)
    requires |text| > 0 && text[|text| - 1] == '\n'
    ensures ScanLines(text + "\n") == ScanLines(text) + [""]
  {
    ScanLinesConcat(text, "\n");
    ScanOneLine("");
    assert "" + "\n" == "\n";
  }

  /** Ignoring a pattern `b` in a file holding just the line `a` leaves
      the lines `a`, an empty line, and `b`. */
  lemma MergeAfterTerminatedLine(a: string, b: string)
    requires IsSimplePattern(a) && IsSimplePattern(b) && a != b
    ensures ScanLines(MergeIgnore(a + "\n", [b])) == [a, "", b]
  {
    var t := a + "\n";
    var lines := ScanLines(MergeIgnore(t, [b]));
    var before := ScanLines(t + "\n");
    assert lines == before + [b] by {
      LinesOfOneLine(a, b);
      LinesAfterMergeOne(t, b);
    }
    assert before == [a] + [""] by {
      LinesOfOneLine(a, b);
      TerminatedTextGainsEmptyLine(t);
    }
    assert [a] + [""] + [b] == [a, "", b];
  }

  lemma LinesAfterMergeOne(t: string, b: string)
    requires '\n' !in b && DropCR(b) == b && b !in ExistingPatterns(t)
    ensures ScanLines(MergeIgnore(t, [b])) == ScanLines(t + "\n") + [b]
  {
    var k := KeptOne(ExistingPatterns(t), b);
    LinesAfterMerge(t, [b]);
  }

  lemma LinesOfOneLine(a: string, b: string)
    requires IsSimplePattern(a) && a != b
    ensures ScanLines(a + "\n") == [a]
    ensures b !in ExistingPatterns(a + "\n")
  {
    ScanOneLine(a);
  }

  lemma KeptOne(existing: set<string>, p: string) returns (k: seq<string>)
    requires p !in existing && DropCR(p) == p
    ensures k == Kept(existing, [p]) == [p]
    ensures MapDropCR(k) == [p]
  {
    assert [p][..0] == [];
    k := [p];
  }

  /** A merge never loses a pattern the old text had. */
  lemma ExistingPreserved(text: string, patterns: seq<string>)
    ensures ExistingPatterns(text) <= ExistingPatterns(MergeIgnore(text, patterns))
  {
    var k := Kept(ExistingPatterns(text), patterns);
    MergeShape(text, patterns);
    ScanLinesConcat(text + "\n", Terminated(k));
    ScanLinesExtend(text);
    forall l | l in ExistingPatterns(text)
      ensures l in ExistingPatterns(MergeIgnore(text, patterns))
    {
      assert l in ScanLines(text + "\n");
    }
  }

  /** An argument that is a single non-blank, non-comment line. */
  predicate IsSimplePattern(p: string)
  {
    IsPatternLine(p) && '\n' !in p && DropCR(p) == p
  }

  /** After a merge, every simple argument is an existing pattern. */
  lemma PatternsPresentAfterMerge(text: string, patterns: seq<string>)
    requires forall p :: p in patterns ==> IsSimplePattern(p)
    ensures forall p :: p in patterns ==> p in ExistingPatterns(MergeIgnore(text, patterns))
  {
    var e := ExistingPatterns(text);
    var k := Kept(e, patterns);
    var lines := ScanLines(MergeIgnore(text, patterns));
    LinesAfterMerge(text, patterns);
    ExistingPreserved(text, patterns);
    KeptMembers(e, patterns);
    forall p | p in patterns
      ensures p in ExistingPatterns(MergeIgnore(text, patterns))
    {
      if p !in e {
        var j :| 0 <= j < |k| && k[j] == p;
        KeptLinePresent(text, patterns, j);
      }
    }
  }

  lemma KeptLinePresent(text: string, patterns: seq<string>, j: nat)
    requires j < |Kept(ExistingPatterns(text), patterns)|
    requires IsSimplePattern(Kept(ExistingPatterns(text), patterns)[j])
    requires ScanLines(MergeIgnore(text, patterns))
             == ScanLines(text + "\n") + MapDropCR(Kept(ExistingPatterns(text), patterns))
    ensures Kept(ExistingPatterns(text), patterns)[j] in ExistingPatterns(MergeIgnore(text, patterns))
  {
    var k := Kept(ExistingPatterns(text), patterns);
    var lines := ScanLines(MergeIgnore(text, patterns));
    var i := |ScanLines(text + "\n")| + j;
    assert i < |lines| && lines[i] == k[j] by {
      assert MapDropCR(k)[j] == k[j];
    }
    assert k[j] in lines && IsPatternLine(k[j]);
  }

  /** Nothing is appended for arguments that are all present already. */
  lemma {:induction false} AppendedNothing(existing: set<string>, patterns: seq<string>)
    requires forall p :: p in patterns ==> p in existing
    ensures Appended(existing, patterns) == ""
  {
    if patterns != [] {
      var init := patterns[..|patterns| - 1];
      assert forall x :: x in init ==> x in patterns;
      AppendedNothing(existing, init);
    }
  }

  /** Ignoring the same simple patterns a second time only adds a newline. */
  lemma IgnoreTwice(text: string, patterns: seq<string>)
    requires forall p :: p in patterns ==> IsSimplePattern(p)
    ensures MergeIgnore(MergeIgnore(text, patterns), patterns) == MergeIgnore(text, patterns) + "\n"
  {
    var m := MergeIgnore(text, patterns);
    PatternsPresentAfterMerge(text, patterns);
    AppendedNothing(ExistingPatterns(m), patterns);
  }

  /** Repeated arguments are appended once per occurrence: the append step
      does not add to the set of existing patterns. */
  lemma {:induction false} AppendedConcat(existing: set<string>, a: seq<string>, b: seq<string>)
    ensures Appended(existing, a + b) == Appended(existing, a) + Appended(existing, b)
    decreases |b|
  {
    if b == [] {
      assert a + b == a;
    } else {
      var init := b[..|b| - 1];
      var q := b[|b| - 1];
      var x := if q in existing then "" else "\n" + q;
      AppendedConcat(existing, a, init);
      calc {
        Appended(existing, a + b);
        { assert (a + b)[..|a + b| - 1] == a + init;
          assert (a + b)[|a + b| - 1] == q; }
        Appended(existing, a + init) + x;
        (Appended(existing, a) + Appended(existing, init)) + x;
        Appended(existing, a) + (Appended(existing, init) + x);
        Appended(existing, a) + Appended(existing, b);
      }
    }
  }

  /** An argument given twice and not present is appended twice. */
  lemma RepeatedArgumentAppendedTwice(text: string, p: string)
    requires p !in ExistingPatterns(text)
    ensures MergeIgnore(text, [p, p]) == text + "\n" + p + "\n" + p + "\n"
  {
    var e := ExistingPatterns(text);
    assert [p, p][..1] == [p];
    assert [p][..0] == [];
    calc {
      MergeIgnore(text, [p, p]);
      text + Appended(e, [p, p]) + "\n";
      text + (Appended(e, [p]) + ("\n" + p)) + "\n";
      { assert Appended(e, [p]) == "" + ("\n" + p); }
      text + (("" + ("\n" + p)) + ("\n" + p)) + "\n";
      text + "\n" + p + "\n" + p + "\n";
    }
  }
}

=== FILE: refs.dfy ===
/** Reference names (ref.go): qualifying a user-supplied branch, remote or
    tag name, and the two resolvers that fall back to HEAD's short name.

    The engine's reference-name helpers are not part of this model; they
    are stated here as the prefix tests and concatenations they perform:
    `IsBranch`, `IsRemote` and `IsTag` test a prefix, the `New...` helpers
    prepend it, and `Short` strips the first known prefix that matches. */
module Refs {
  import opened Errors

  newtype byte = x: int | 0 <= x < 256

  /** A 20-byte object name. */
  datatype Hash = Hash(bytes: seq<byte>)

  /** The engine's zero hash (all 20 bytes zero). */
  const ZeroHash: Hash := Hash(seq(20, _ => 0))

  /** A hash reference: a fully-qualified name and the commit it points at. */
  datatype Reference = Reference(name: string, hash: Hash)

  const RefPrefix := "refs/"
  const BranchPrefix := "refs/heads/"
  const TagPrefix := "refs/tags/"
  const RemotePrefix := "refs/remotes/"

  /** The engine's `plumbing.Master`. */
  const Master := "refs/heads/master"

  /** The remote every remote-tracking name is qualified under. */
  const Origin := "origin"

  predicate IsBranch(n: string) { BranchPrefix <= n }
  predicate IsTag(n: string) { TagPrefix <= n }
  predicate IsRemote(n: string) { RemotePrefix <= n }

  /** The three namespaces are disjoint: their prefixes differ at index 5. */
  lemma NamespacesDisjoint(n: string)
    ensures IsBranch(n) ==> !IsTag(n) && !IsRemote(n)
    ensures IsTag(n) ==> !IsRemote(n)
  {
    if IsBranch(n) { assert n[5] == BranchPrefix[5]; }
    if IsTag(n) { assert n[5] == TagPrefix[5]; }
  }

  function NewBranchReferenceName(n: string): string { BranchPrefix + n }
  function NewTagReferenceName(n: string): string { TagPrefix + n }
  function NewRemoteReferenceName(remote: string, n: string): string { RemotePrefix + remote + "/" + n }

  /** The short form of a reference name: the first known prefix that
      matches is stripped. */
  function Short(n: string): string
  {
    if IsBranch(n) then n[|BranchPrefix|..]
    else if IsTag(n) then n[|TagPrefix|..]
    else if IsRemote(n) then n[|RemotePrefix|..]
    else if RefPrefix <= n then n[|RefPrefix|..]
    else n
  }

  /** getBranchReferenceName: a branch name, qualified under refs/heads/
      unless it already is. */
  function BranchReferenceName(name: string): (r: string)
    ensures IsBranch(r)
    ensures r == name <==> IsBranch(name)
    ensures r == name || r == BranchPrefix + name
    ensures !IsBranch(name) ==> Short(r) == name
  {
    if IsBranch(name) then name else NewBranchReferenceName(name)
  }

  /** getBranchRemoteReferenceName: qualified under refs/remotes/origin/
      unless it already names any remote-tracking reference. */
  function BranchRemoteReferenceName(name: string): (r: string)
    ensures IsRemote(r)
    ensures r == name <==> IsRemote(name)
    ensures r == name || r == RemotePrefix + Origin + "/" + name
    ensures !IsRemote(name) ==> Short(r) == Origin + "/" + name
  {
    if IsRemote(name) then name
    else
      var r := NewRemoteReferenceName(Origin, name);
      NamespacesDisjoint(r);
      assert r[|RemotePrefix|..] == Origin + "/" + name;
      r
  }

  /** getTagReferenceName: a tag name, qualified under refs/tags/ unless it
      already is. */
  function TagReferenceName(name: string): (r: string)
    ensures IsTag(r)
    ensures r == name <==> IsTag(name)
    ensures r == name || r == TagPrefix + name
    ensures !IsTag(name) ==> Short(r) == name
  {
    if IsTag(name) then name
    else
      var r := NewTagReferenceName(name);
      NamespacesDisjoint(r);
      r
  }

  /** Qualifying a qualified branch name changes nothing. */
  lemma BranchReferenceNameIdempotent(name: string)
    ensures BranchReferenceName(BranchReferenceName(name)) == BranchReferenceName(name)
  {
  }

  /** Qualifying a qualified remote-tracking name changes nothing. */
  lemma BranchRemoteReferenceNameIdempotent(name: string)
    ensures BranchRemoteReferenceName(BranchRemoteReferenceName(name)) == BranchRemoteReferenceName(name)
  {
  }

  /** Qualifying a qualified tag name changes nothing. */
  lemma TagReferenceNameIdempotent(name: string)
    ensures TagReferenceName(TagReferenceName(name)) == TagReferenceName(name)
  {
  }

  /** Qualification is one-to-one on names it actually qualifies. */
  lemma {:induction false} BranchReferenceNameInjective(a: string, b: string)
    requires !IsBranch(a) && !IsBranch(b)
    requires BranchReferenceName(a) == BranchReferenceName(b)
    ensures a == b
  {
    assert a == Short(BranchReferenceName(a));
  }

  /** (*repository).getBranchReferenceName: an empty name means the branch
      named by HEAD's short name; HEAD is read only for an empty name, and
      its error is returned (with an empty name) when it cannot be read. */
  function ResolveBranchName(name: string, head: Result<Reference>): (r: Result<string>)
    ensures r.Fail? <==> |name| == 0 && head.Fail?
    ensures r.Fail? ==> r.err == head.err
    ensures r.Ok? ==> IsBranch(r.value)
    ensures |name| > 0 ==> r == Ok(BranchReferenceName(name))
    ensures |name| == 0 && head.Ok? ==> r == Ok(BranchReferenceName(Short(head.value.name)))
  {
    if |name| == 0 then
      match head
      case Fail(e) => Fail(e)
      case Ok(h) => Ok(BranchReferenceName(Short(h.name)))
    else Ok(BranchReferenceName(name))
  }

  /** (*repository).getTagReferenceName: as ResolveBranchName, under refs/tags/. */
  function ResolveTagName(name: string, head: Result<Reference>): (r: Result<string>)
    ensures r.Fail? <==> |name| == 0 && head.Fail?
    ensures r.Fail? ==> r.err == head.err
    ensures r.Ok? ==> IsTag(r.value)
    ensures |name| > 0 ==> r == Ok(TagReferenceName(name))
    ensures |name| == 0 && head.Ok? ==> r == Ok(TagReferenceName(Short(head.value.name)))
  {
    if |name| == 0 then
      match head
      case Fail(e) => Fail(e)
      case Ok(h) => Ok(TagReferenceName(Short(h.name)))
    else Ok(TagReferenceName(name))
  }

  /** With HEAD on branch `refs/heads/<b>`, the empty name resolves to HEAD's
      own reference, exactly as the short name `<b>` does. */
  lemma {:induction false} EmptyBranchNameIsCurrentBranch(b: string, hash: Hash, other: Result<Reference>)
    requires b != [] && !IsBranch(b)
    ensures ResolveBranchName("", Ok(Reference(BranchPrefix + b, hash))) == Ok(BranchPrefix + b)
    ensures ResolveBranchName("", Ok(Reference(BranchPrefix + b, hash))) == ResolveBranchName(b, other)
  {
    var n := BranchPrefix + b;
    assert IsBranch(n);
    assert Short(n) == b;
  }

  /** With HEAD on branch `refs/heads/<b>`, the empty tag name resolves to
      the tag `refs/tags/<b>` of the same short name. */
  lemma {:induction false} EmptyTagNameFollowsHeadBranch(b: string, hash: Hash)
    ensures ResolveTagName("", Ok(Reference(BranchPrefix + b, hash))) == Ok(TagReferenceName(b))
  {
    var n := BranchPrefix + b;
    assert IsBranch(n);
    assert Short(n) == b;
  }
}

=== FILE: refspec.dfy ===
/** How the engine reads a push ref-spec string, following git's
    `[+]<src>:<dst>` syntax (git-push(1), "<refspec>"): a leading `+`
    requests a forced update, the source ends at the first `:`, and an
    empty source with a destination deletes the destination. The engine's
    own ref-spec code is not part of this model; this module states those
    accessors so that the spec strings built by the tag and branch handles
    can be checked against them. */
module RefSpecSyntax {
  import opened Errors
  import opened Strings

  datatype RefSpec = RefSpec(force: bool, src: string, dst: string)
  {
    /** A deletion pushes nothing into `dst`. */
    predicate IsDelete() { !force && src == [] }
  }

  /** Reads a ref-spec string; `None` when it has no `:` separator. */
  function Parse(s: string): (r: Option<RefSpec>)
    ensures r.Some? ==> r.value.force == (|s| > 0 && s[0] == '+')
  {
    var force := |s| > 0 && s[0] == '+';
    var body := if force then s[1..] else s;
    var i := IndexOf(body, ':');
    if i == |body| then None else Some(RefSpec(force, body[..i], body[i + 1..]))
  }

  /** `:<ref>` reads as the deletion of `<ref>`. */
  lemma {:induction false} ParseDeletion(ref: string)
    requires ':' !in ref
    ensures Parse(":" + ref) == Some(RefSpec(false, "", ref))
    ensures Parse(":" + ref).value.IsDelete()
  {
    var s := ":" + ref;
    assert s[0] == ':';
    assert IndexOf(s, ':') == 0;
    assert s[1..] == ref;
  }

  /** `+<ref>:<ref>` reads as a forced update of `<ref>` from itself. */
  lemma {:induction false} ParseForcedUpdate(ref: string)
    requires ':' !in ref
    ensures Parse("+" + ref + ":" + ref) == Some(RefSpec(true, ref, ref))
    ensures !Parse("+" + ref + ":" + ref).value.IsDelete()
  {
    var s := "+" + ref + ":" + ref;
    var body := ref + ":" + ref;
    assert s[0] == '+';
    assert s[1..] == body;
    IndexOfAfter(ref, ":" + ref, ':');
    assert body == ref + (":" + ref);
    assert IndexOf(":" + ref, ':') == 0;
    assert body[..|ref|] == ref;
    assert body[|ref| + 1..] == ref;
  }
}

=== FILE: repository.dfy ===
/** The repository wrapper (repository.go): the cached HEAD, the
    clean-worktree guard, checkout target selection, commit, the
    `.gitignore` merge, the ignore query and the remote branch/tag delete.
    Every engine call is a parameter: the value it returns, or a function
    from its argument to that value. */
module Repositories {
  import opened Errors
  import opened Refs
  import opened RefSpecSyntax
  import opened Tags
  import opened Branches
  import opened GitIgnore

  /** The per-file codes the engine reports in a status. */
  datatype StatusCode = Unmodified | Untracked | Modified | Added | Deleted | Renamed | Copied | UpdatedButUnmerged

  /** A status entry: the file's state in the index and in the worktree. */
  datatype FileStatus = FileStatus(staging: StatusCode, worktree: StatusCode)

  type Status = map<string, FileStatus>

  predicate IsUnmodified(s: FileStatus)
  {
    s.staging == Unmodified && s.worktree == Unmodified
  }

  predicate HasUntracked(s: FileStatus)
  {
    s.staging == Untracked || s.worktree == Untracked
  }

  /** The engine's own cleanliness test: every entry unmodified. */
  predicate StatusIsClean(status: Status)
  {
    forall p :: p in status ==> IsUnmodified(status[p])
  }

  /** The entries IsClean keeps: all but the untracked ones at hidden paths. */
  function DropHiddenUntracked(status: Status, isHidden: string -> bool): (r: Status)
    ensures forall p :: p in r ==> p in status && r[p] == status[p]
    ensures forall p :: p in status ==> (p !in r <==> HasUntracked(status[p]) && isHidden(p))
  {
    map p | p in status && !(HasUntracked(status[p]) && isHidden(p)) :: status[p]
  }

  /** The worktree as the engine hands it out: the error opening it gives
      (a bare repository has none), its status or the error computing it,
      and which paths count as hidden. */
  datatype Worktree = Worktree(openErr: GoError, status: Result<Status>, isHidden: string -> bool)

  /** What the clean-worktree guard admits: every entry is unmodified, or
      is untracked at a hidden path. A hidden path that is modified or
      staged still blocks. */
  predicate CleanIgnoringHidden(status: Status, isHidden: string -> bool)
  {
    forall p :: p in status ==> IsUnmodified(status[p]) || (HasUntracked(status[p]) && isHidden(p))
  }

  /** Cleaning out hidden untracked entries and then asking the engine is
      the same as CleanIgnoringHidden. */
  lemma DropHiddenUntrackedClean(status: Status, isHidden: string -> bool)
    ensures StatusIsClean(DropHiddenUntracked(status, isHidden)) <==> CleanIgnoringHidden(status, isHidden)
  {
    var d := DropHiddenUntracked(status, isHidden);
    if StatusIsClean(d) {
      forall p | p in status
        ensures IsUnmodified(status[p]) || (HasUntracked(status[p]) && isHidden(p))
      {
        if p in d { assert IsUnmodified(d[p]); }
      }
    }
  }

  /** The error cleanWorkTree returns: the error opening the worktree, or
      ErrCurrentWorktreeNotClean when the status is dirty or could not be
      computed, or none. */
  function WorktreeGuard(wt: Worktree): (r: GoError)
    ensures wt.openErr.Some? ==> r == wt.openErr
    ensures wt.openErr.None? ==>
      (r.None? <==> wt.status.Ok? && CleanIgnoringHidden(wt.status.value, wt.isHidden))
    ensures wt.openErr.None? && r.Some? ==> r == Some(ErrCurrentWorktreeNotClean)
  {
    if wt.openErr.Some? then wt.openErr
    else if wt.status.Fail? then Some(ErrCurrentWorktreeNotClean)
    else
      DropHiddenUntrackedClean(wt.status.value, wt.isHidden);
      if StatusIsClean(DropHiddenUntracked(wt.status.value, wt.isHidden)) then None
      else Some(ErrCurrentWorktreeNotClean)
  }

  /** CheckoutBranch's target: master for the empty name, whatever HEAD
      is; otherwise the remote-tracking reference under origin. */
  function BranchCheckoutTarget(name: string): (r: string)
    ensures |name| == 0 ==> r == Master
    ensures |name| > 0 ==> r == BranchRemoteReferenceName(name) && IsRemote(r)
  {
    if |name| == 0 then Master else BranchRemoteReferenceName(name)
  }

  /** CheckoutTag's target: master for the empty name, otherwise the
      qualified tag. */
  function TagCheckoutTarget(name: string): (r: string)
    ensures |name| == 0 ==> r == Master
    ensures |name| > 0 ==> r == TagReferenceName(name) && IsTag(r)
  {
    if |name| == 0 then Master else TagReferenceName(name)
  }

  /** Only the empty name checks out master: every non-empty branch name
      checks out a remote-tracking reference, every non-empty tag name a
      tag. */
  lemma OnlyEmptyNameChecksOutMaster(name: string)
    requires |name| > 0
    ensures BranchCheckoutTarget(name) != Master
    ensures TagCheckoutTarget(name) != Master
  {
    assert IsBranch(Master);
    NamespacesDisjoint(Master);
  }

  /** So `CheckoutBranch("master")` does not check out what
      `CheckoutBranch("")` does: it picks the remote-tracking branch. */
  lemma NamedMasterIsRemoteTracking()
    ensures BranchCheckoutTarget("master") == "refs/remotes/origin/master"
    ensures BranchCheckoutTarget("") == "refs/heads/master"
  {
    var m := "master";
    assert !IsRemote(m) by { assert |m| < |RemotePrefix|; }
    assert BranchRemoteReferenceName(m) == RemotePrefix + Origin + "/" + m;
    MasterRemoteSpelling();
  }

  lemma MasterRemoteSpelling()
    ensures RemotePrefix + Origin + "/" + "master" == "refs/remotes/origin/master"
  {
  }

  /** getHash: an explicit hash is parsed; the empty one means HEAD's hash,
      or the zero hash when HEAD cannot be read. It never fails. */
  function GetHash(hash: string, head: Result<Reference>, newHash: string -> Hash): (r: Result<Hash>)
    ensures r.Ok?
    ensures |hash| > 0 ==> r.value == newHash(hash)
    ensures |hash| == 0 && head.Ok? ==> r.value == head.value.hash
    ensures |hash| == 0 && head.Fail? ==> r.value == ZeroHash
  {
    if |hash| == 0 then
      match head
      case Fail(_) => Ok(ZeroHash)
      case Ok(ref) => Ok(ref.hash)
    else Ok(newHash(hash))
  }

  /** What one ignore pattern says of the queried paths. */
  datatype MatchResult = NoMatch | Exclude | Include

  /** isIgnore's rule: ignored as soon as any pattern excludes. */
  predicate AnyExcludes<P>(patterns: seq<P>, matchOf: P -> MatchResult)
  {
    exists j :: 0 <= j < |patterns| && matchOf(patterns[j]) == Exclude
  }

  /** The gitignore rule the engine's matcher applies: the last pattern
      that matches decides. */
  predicate LastMatchExcludes<P>(patterns: seq<P>, matchOf: P -> MatchResult)
    decreases |patterns|
  {
    if patterns == [] then false
    else
      var m := matchOf(patterns[|patterns| - 1]);
      if m == NoMatch then LastMatchExcludes(patterns[..|patterns| - 1], matchOf) else m == Exclude
  }

  /** Whatever the last-match rule ignores, the any-exclude rule ignores. */
  lemma {:induction false} LastMatchImpliesAnyExcludes<P>(patterns: seq<P>, matchOf: P -> MatchResult)
    requires LastMatchExcludes(patterns, matchOf)
    ensures AnyExcludes(patterns, matchOf)
    decreases |patterns|
  {
    var n := |patterns|;
    if matchOf(patterns[n - 1]) == NoMatch {
      LastMatchImpliesAnyExcludes(patterns[..n - 1], matchOf);
      var j :| 0 <= j < n - 1 && matchOf(patterns[..n - 1][j]) == Exclude;
      assert matchOf(patterns[j]) == Exclude;
    } else {
      assert matchOf(patterns[n - 1]) == Exclude;
    }
  }

  /** The converse fails: a later negated pattern re-includes a path for
      the last-match rule, but not for isIgnore's. */
  lemma NegationIgnoredByAnyExclude()
    ensures AnyExcludes([Exclude, Include], (m: MatchResult) => m)
    ensures !LastMatchExcludes([Exclude, Include], (m: MatchResult) => m)
  {
    var ps := [Exclude, Include];
    assert ps[0] == Exclude;
  }

  /** The push specs DeleteTag sends: the deletion only when the local
      delete succeeded, else the forced update of the same tag. */
  function DeleteTagSpecs(trn: string, localDelete: GoError): (r: seq<string>)
    ensures |r| == 1
    ensures ':' !in trn ==> Parse(r[0]).Some? && (Parse(r[0]).value.IsDelete() <==> localDelete.None?)
  {
    TagRefSpecs(trn, localDelete.None?)
  }

  /** A tag that fails to delete locally (missing, say, because it only
      exists on the remote) is force-pushed by DeleteTag, not deleted. */
  lemma DeleteTagOfRemoteOnlyTagForcePushes(trn: string, e: Error)
    requires IsTag(trn)
    ensures DeleteTagSpecs(trn, Some(e)) == ["+" + trn + ":" + trn]
  {
    assert TagReferenceName(trn) == trn;
  }

  /** The push specs a remote tag delete needs: always the deletion. */
  function IntendedDeleteTagSpecs(trn: string): (r: seq<string>)
    ensures |r| == 1
    ensures r == DeleteTagSpecs(trn, None)
    ensures ':' !in trn ==> Parse(r[0]) == Some(RefSpec(false, "", TagReferenceName(trn)))
  {
    TagRefSpecs(trn, true)
  }

  /** The push specs DeleteBranch sends: the deletion only when the local
      delete succeeded, else none (the engine's default push). */
  function DeleteBranchSpecs(brn: string, localDelete: GoError): (r: seq<string>)
    ensures localDelete.Some? ==> r == []
    ensures localDelete.None? && ':' !in brn ==> |r| == 1 && Parse(r[0]).Some? && Parse(r[0]).value.IsDelete()
  {
    BranchRefSpecs(Short(brn), localDelete.None?)
  }

  /** A branch with no local configuration entry is not deleted remotely by
      DeleteBranch: nothing names it in the push. */
  lemma DeleteBranchWithoutLocalEntryPushesNoDeletion(brn: string)
    ensures DeleteBranchSpecs(brn, Some(ErrBranchNotFound)) == []
  {
  }

  /** The push specs a remote branch delete needs: always the deletion of
      the qualified branch. */
  function IntendedDeleteBranchSpecs(brn: string): (r: seq<string>)
    ensures |r| == 1
    ensures r == DeleteBranchSpecs(brn, None)
    ensures ':' !in brn ==> Parse(r[0]) == Some(RefSpec(false, "", BranchReferenceName(Short(brn))))
  {
    ShortKeepsColonFree(brn);
    BranchRefSpecs(Short(brn), true)
  }

  lemma ShortKeepsColonFree(n: string)
    ensures ':' !in n ==> ':' !in Short(n)
  {
    if ':' !in n {
      var s := Short(n);
      assert s == n || n == BranchPrefix + s || n == TagPrefix + s || n == RemotePrefix + s || n == RefPrefix + s;
    }
  }

  class Repository {
    /** The hash and the name of HEAD at the last refresh. */
    var headHash: Hash
    var currentRefName: string

    /** newRepository: the zero cache, then one refresh whose error is
        dropped. */
    constructor (head: Result<Reference>)
      ensures head.Ok? ==> headHash == head.value.hash && currentRefName == head.value.name
      ensures head.Fail? ==> headHash == ZeroHash && currentRefName == ""
    {
      headHash := ZeroHash;
      currentRefName := "";
      new;
      var _ := UpdateHeadHash(head);
    }

    /** updateHeadHash: both cached fields from HEAD, or neither when HEAD
        cannot be read. */
    method UpdateHeadHash(head: Result<Reference>) returns (err: GoError)
      modifies this`headHash, this`currentRefName
      ensures head.Ok? ==> err.None? && headHash == head.value.hash && currentRefName == head.value.name
      ensures head.Fail? ==> err == Some(head.err)
      ensures head.Fail? ==> headHash == old(headHash) && currentRefName == old(currentRefName)
    {
      if head.Fail? {
        return Some(head.err);
      }
      headHash := head.value.hash;
      currentRefName := head.value.name;
      err := None;
    }

    /** IsClean: drops the untracked entries at hidden paths from the
        status, then asks whether what is left is clean. */
    method IsClean(wt: Worktree) returns (clean: bool, err: GoError)
      ensures wt.openErr.Some? ==> !clean && err == wt.openErr
      ensures wt.openErr.None? && wt.status.Fail? ==> !clean && err == Some(wt.status.err)
      ensures wt.openErr.None? && wt.status.Ok? ==>
        err.None? && (clean <==> CleanIgnoringHidden(wt.status.value, wt.isHidden))
    {
      if wt.openErr.Some? {
        return false, wt.openErr;
      }
      if wt.status.Fail? {
        return false, Some(wt.status.err);
      }
      var status := wt.status.value;
      var s := status;
      var todo := status.Keys;
      while todo != {}
        invariant todo <= status.Keys
        invariant forall p :: p in s ==> p in status && s[p] == status[p]
        invariant forall p :: p in status ==>
          (p in s <==> p in todo || !(HasUntracked(status[p]) && wt.isHidden(p)))
        decreases todo
      {
        var k :| k in todo;
        if HasUntracked(status[k]) && wt.isHidden(k) {
          s := s - {k};
        }
        todo := todo - {k};
      }
      assert s == DropHiddenUntracked(status, wt.isHidden);
      DropHiddenUntrackedClean(status, wt.isHidden);
      clean, err := StatusIsClean(s), None;
    }

    /** cleanWorkTree: the worktree's own error, or ErrCurrentWorktreeNotClean
        when IsClean says no (including when it failed). */
    method CleanWorkTree(wt: Worktree) returns (err: GoError)
      ensures err == WorktreeGuard(wt)
    {
      if wt.openErr.Some? {
        return wt.openErr;
      }
      var clean, _ := IsClean(wt);
      err := if clean then None else Some(ErrCurrentWorktreeNotClean);
    }

    /** checkout: guard, engine checkout of `ref`, refresh. `target` is the
        reference handed to the engine, none when the guard stopped it. */
    method Checkout(ref: string, wt: Worktree, checkout: string -> GoError, head: Result<Reference>)
      returns (err: GoError, target: Option<string>)
      modifies this`headHash, this`currentRefName
      ensures WorktreeGuard(wt).Some? ==> err == WorktreeGuard(wt) && target.None?
      ensures WorktreeGuard(wt).None? ==> target == Some(ref)
      ensures WorktreeGuard(wt).None? && checkout(ref).Some? ==> err == checkout(ref)
      ensures WorktreeGuard(wt).None? && checkout(ref).None? ==>
        if head.Ok? then err.None? && headHash == head.value.hash && currentRefName == head.value.name
        else err == Some(head.err)
      ensures err.Some? ==> headHash == old(headHash) && currentRefName == old(currentRefName)
    {
      target := None;
      err := CleanWorkTree(wt);
      if err.Some? {
        return;
      }
      target := Some(ref);
      err := checkout(ref);
      if err.Some? {
        return;
      }
      err := UpdateHeadHash(head);
    }

    /** CheckoutBranch: checkout of BranchCheckoutTarget(name). */
    method CheckoutBranch(name: string, wt: Worktree, checkout: string -> GoError, head: Result<Reference>)
      returns (err: GoError, target: Option<string>)
      modifies this`headHash, this`currentRefName
      ensures WorktreeGuard(wt).Some? ==> err == WorktreeGuard(wt) && target.None?
      ensures WorktreeGuard(wt).None? ==> target == Some(BranchCheckoutTarget(name))
      ensures WorktreeGuard(wt).None? && checkout(BranchCheckoutTarget(name)).Some? ==>
        err == checkout(BranchCheckoutTarget(name))
      ensures WorktreeGuard(wt).None? && checkout(BranchCheckoutTarget(name)).None? ==>
        if head.Ok? then err.None? && headHash == head.value.hash && currentRefName == head.value.name
        else err == Some(head.err)
      ensures err.None? ==> head.Ok? && headHash == head.value.hash && currentRefName == head.value.name
      ensures err.Some? ==> headHash == old(headHash) && currentRefName == old(currentRefName)
    {
      err, target := Checkout(BranchCheckoutTarget(name), wt, checkout, head);
    }

    /** CheckoutTag: checkout of TagCheckoutTarget(name). */
    method CheckoutTag(name: string, wt: Worktree, checkout: string -> GoError, head: Result<Reference>)
      returns (err: GoError, target: Option<string>)
      modifies this`headHash, this`currentRefName
      ensures WorktreeGuard(wt).Some? ==> err == WorktreeGuard(wt) && target.None?
      ensures WorktreeGuard(wt).None? ==> target == Some(TagCheckoutTarget(name))
      ensures WorktreeGuard(wt).None? && checkout(TagCheckoutTarget(name)).Some? ==>
        err == checkout(TagCheckoutTarget(name))
      ensures WorktreeGuard(wt).None? && checkout(TagCheckoutTarget(name)).None? ==>
        if head.Ok? then err.None? && headHash == head.value.hash && currentRefName == head.value.name
        else err == Some(head.err)
      ensures err.None? ==> head.Ok? && headHash == head.value.hash && currentRefName == head.value.name
      ensures err.Some? ==> headHash == old(headHash) && currentRefName == old(currentRefName)
    {
      err, target := Checkout(TagCheckoutTarget(name), wt, checkout, head);
    }

    /** Pull: key, guard, engine pull (normalised), refresh. `pulled` says
        whether the engine was asked to pull. */
    method Pull(auth: GoError, wt: Worktree, pull: GoError, head: Result<Reference>)
      returns (err: GoError, pulled: bool)
      modifies this`headHash, this`currentRefName
      ensures pulled <==> auth.None? && WorktreeGuard(wt).None?
      ensures auth.Some? ==> err == auth
      ensures auth.None? && WorktreeGuard(wt).Some? ==> err == WorktreeGuard(wt)
      ensures pulled && CheckErr(pull).Some? ==> err == pull
      ensures pulled && CheckErr(pull).None? ==>
        if head.Ok? then err.None? && headHash == head.value.hash && currentRefName == head.value.name
        else err == Some(head.err)
      ensures err.Some? ==> headHash == old(headHash) && currentRefName == old(currentRefName)
    {
      pulled := false;
      if auth.Some? {
        return auth, false;
      }
      err := CleanWorkTree(wt);
      if err.Some? {
        return;
      }
      pulled := true;
      err := CheckErr(pull);
      if err.None? {
        err := UpdateHeadHash(head);
      }
    }

    /** Push (of the repository's default spec): key, then the engine's
        answer, normalised; no worktree guard and no refresh. */
    method Push(auth: GoError, push: GoError) returns (err: GoError)
      ensures auth.Some? ==> err == auth
      ensures auth.None? ==> err == CheckErr(push)
    {
      if auth.Some? {
        return auth;
      }
      err := CheckErr(push);
    }

    /** Fetch: key, then the engine's answer, normalised. */
    method Fetch(auth: GoError, fetch: GoError) returns (err: GoError)
      ensures auth.Some? ==> err == auth
      ensures auth.None? ==> err == CheckErr(fetch)
    {
      if auth.Some? {
        return auth;
      }
      err := CheckErr(fetch);
    }

    /** Commit: nothing to do on a status the engine calls clean (hidden
        untracked files are not dropped here); otherwise the engine's
        commit, then a refresh. */
    method Commit(wt: Worktree, commit: GoError, head: Result<Reference>)
      returns (err: GoError, committed: bool)
      modifies this`headHash, this`currentRefName
      ensures committed <==> wt.openErr.None? && wt.status.Ok? && !StatusIsClean(wt.status.value)
      ensures wt.openErr.Some? ==> err == wt.openErr
      ensures wt.openErr.None? && wt.status.Fail? ==> err == Some(wt.status.err)
      ensures wt.openErr.None? && wt.status.Ok? && StatusIsClean(wt.status.value) ==> err.None?
      ensures committed && commit.Some? ==> err == commit
      ensures committed && commit.None? ==>
        if head.Ok? then err.None? && headHash == head.value.hash && currentRefName == head.value.name
        else err == Some(head.err)
      ensures !committed || err.Some? ==> headHash == old(headHash) && currentRefName == old(currentRefName)
    {
      committed := false;
      if wt.openErr.Some? {
        return wt.openErr, false;
      }
      if wt.status.Fail? {
        return Some(wt.status.err), false;
      }
      if StatusIsClean(wt.status.value) {
        return None, false;
      }
      committed := true;
      err := commit;
      if err.Some? {
        return;
      }
      err := UpdateHeadHash(head);
    }

    /** Ignore: `file` is the old `.gitignore` text, or the error of
        finding, opening or reading it (a missing file is such an error);
        `written` is the text handed to the file, none when nothing was
        written. */
    method Ignore(openErr: GoError, file: Result<string>, createErr: GoError, writeErr: GoError,
                  patterns: seq<string>)
      returns (err: GoError, written: Option<string>)
      ensures openErr.Some? ==> err == openErr && written.None?
      ensures openErr.None? && file.Fail? ==> err == Some(file.err) && written.None?
      ensures openErr.None? && file.Ok? && createErr.Some? ==> err == createErr && written.None?
      ensures openErr.None? && file.Ok? && createErr.None? ==>
        err == writeErr && written == Some(MergeIgnore(file.value, patterns))
    {
      if openErr.Some? {
        return openErr, None;
      }
      if file.Fail? {
        return Some(file.err), None;
      }
      var text := file.value;
      var lines := ScanLines(text);
      var content: set<string> := {};
      var i := 0;
      while i < |lines|
        invariant 0 <= i <= |lines|
        invariant content == set l | l in lines[..i] && IsPatternLine(l)
      {
        if IsPatternLine(lines[i]) {
          content := content + {lines[i]};
        }
        assert lines[..i + 1] == lines[..i] + [lines[i]];
        i := i + 1;
      }
      assert lines[..i] == lines;
      if createErr.Some? {
        return createErr, None;
      }
      var cnt := text;
      var k := 0;
      while k < |patterns|
        invariant 0 <= k <= |patterns|
        invariant cnt == text + Appended(content, patterns[..k])
      {
        var pattern := patterns[k];
        assert patterns[..k + 1][..k] == patterns[..k];
        if pattern !in content {
          cnt := cnt + "\n";
          cnt := cnt + pattern;
        }
        k := k + 1;
      }
      assert patterns[..k] == patterns;
      cnt := cnt + "\n";
      return writeErr, Some(cnt);
    }

    /** isIgnore: the global patterns, then the system ones, then the
        worktree's own; ignored as soon as one of them excludes. */
    method IsIgnore<P>(openErr: GoError, global: seq<P>, system: seq<P>, local: seq<P>,
                       matchOf: P -> MatchResult)
      returns (ignored: bool, err: GoError)
      ensures openErr.Some? ==> !ignored && err == openErr
      ensures openErr.None? ==> err.None? && (ignored <==> AnyExcludes(global + system + local, matchOf))
    {
      if openErr.Some? {
        return false, openErr;
      }
      var ps := global + system + local;
      for i := 0 to |ps|
        invariant forall j :: 0 <= j < i ==> matchOf(ps[j]) != Exclude
      {
        if matchOf(ps[i]) == Exclude {
          return true, None;
        }
      }
      return false, None;
    }

    /** DeleteTag: resolve the name, make a tag handle at the zero hash,
        delete it locally (its error dropped), then push its specs. */
    method DeleteTag(name: string, head: Result<Reference>, deleteTag: string -> GoError,
                     auth: GoError, push: seq<string> -> GoError)
      returns (err: GoError)
      ensures ResolveTagName(name, head).Fail? ==> err == Some(head.err)
      ensures ResolveTagName(name, head).Ok? ==>
        var trn := ResolveTagName(name, head).value;
        err == if auth.Some? then auth else CheckErr(push(DeleteTagSpecs(trn, deleteTag(Short(trn)))))
    {
      var trn := ResolveTagName(name, head);
      if trn.Fail? {
        return Some(trn.err);
      }
      var t := new Tag(Reference(trn.value, ZeroHash));
      var _ := t.Delete(deleteTag);
      err := t.base.Push(auth, push);
    }

    /** DeleteBranch: resolve the name, make a branch handle for it, delete
        it locally (its error dropped), then push its specs. */
    method DeleteBranch(name: string, head: Result<Reference>, deleteBranch: string -> GoError,
                        removeReference: string -> GoError, auth: GoError, push: seq<string> -> GoError)
      returns (err: GoError)
      ensures ResolveBranchName(name, head).Fail? ==> err == Some(head.err)
      ensures ResolveBranchName(name, head).Ok? ==>
        var brn := ResolveBranchName(name, head).value;
        var local := if deleteBranch(Short(brn)).Some? then deleteBranch(Short(brn)) else removeReference(brn);
        err == if auth.Some? then auth else CheckErr(push(DeleteBranchSpecs(brn, local)))
    {
      var brn := ResolveBranchName(name, head);
      if brn.Fail? {
        return Some(brn.err);
      }
      var b := new Branch(Short(brn.value), brn.value);
      var _, _ := b.Delete(deleteBranch, removeReference);
      err := b.base.Push(auth, push);
    }
  }
}

=== FILE: strings.dfy ===
/** Small facts about searching a character in a string, shared by the
    ref-spec reader and the line scanner. */
module Strings {

  /** Position of the first `c` in `s`, or `|s|` when there is none
      (Go's strings.Index with a missing separator reported as `|s|`). */
  function IndexOf(s: string, c: char): (i: nat)
    ensures i <= |s|
    ensures i < |s| ==> s[i] == c
    ensures i == |s| <==> c !in s
    ensures forall k :: 0 <= k < i ==> s[k] != c
  {
    if s == [] then 0
    else if s[0] == c then 0
    else 1 + IndexOf(s[1..], c)
  }

  /** Searching past a prefix that does not hold `c` lands after that prefix. */
  lemma {:induction false} IndexOfAfter(a: string, b: string, c: char)
    requires c !in a
    ensures IndexOf(a + b, c) == |a| + IndexOf(b, c)
  {
    if a == [] {
      assert a + b == b;
    } else {
      assert (a + b)[1..] == a[1..] + b;
      IndexOfAfter(a[1..], b, c);
    }
  }
}

=== FILE: tag.dfy ===
/** Push/delete handles (tag.go): the shared `base` with its pending-delete
    flag, and the tag handle whose push spec depends on that flag. */
module Tags {
  import opened Errors
  import opened Refs
  import opened RefSpecSyntax

  /** The part shared by branch and tag handles. `getRefSpecs` is the spec
      builder the concrete handle installs; it is read with the current
      value of `isDeleted`, as the installed method reads the flag. */
  class Base {
    var isDeleted: bool
    const getRefSpecs: bool -> seq<string>

    /** A fresh handle is not pending deletion. */
    constructor (specs: bool -> seq<string>)
      ensures !isDeleted
      ensures forall d :: getRefSpecs(d) == specs(d)
    {
      isDeleted := false;
      getRefSpecs := specs;
    }

    /** The ref-specs the next push sends. */
    function RefSpecs(): seq<string>
      reads this
    {
      getRefSpecs(isDeleted)
    }

    /** base.Push: the authentication error if loading the key failed,
        otherwise the engine's answer to a push of exactly RefSpecs(),
        normalised. */
    method Push(auth: GoError, push: seq<string> -> GoError) returns (err: GoError)
      ensures auth.Some? ==> err == auth
      ensures auth.None? ==> err == CheckErr(push(RefSpecs()))
    {
      if auth.Some? {
        return auth;
      }
      err := CheckErr(push(RefSpecs()));
    }

    /** base.Delete: marks the handle pending deletion for good; never fails. */
    method Delete() returns (err: GoError)
      modifies this`isDeleted
      ensures isDeleted && err.None?
    {
      isDeleted := true;
      err := None;
    }
  }

  /** tag.getRefSpecs: one spec, the deletion `:<ref>` when the tag is
      pending deletion, the forced update `+<ref>:<ref>` otherwise, where
      `<ref>` is the qualified tag name. */
  function TagRefSpecs(name: string, deleted: bool): (r: seq<string>)
    ensures |r| == 1
    ensures ':' !in name ==> Parse(r[0]).Some?
    ensures ':' !in name ==> Parse(r[0]).value.dst == TagReferenceName(name)
    ensures ':' !in name ==> (Parse(r[0]).value.IsDelete() <==> deleted)
    ensures ':' !in name && !deleted ==> Parse(r[0]).value == RefSpec(true, TagReferenceName(name), TagReferenceName(name))
  {
    var tn := TagReferenceName(name);
    QualifiedNameSpecsParse(name);
    if deleted then [":" + tn] else ["+" + tn + ":" + tn]
  }

  /** A name without `:` keeps none after qualification, so both spec
      shapes read back as intended. */
  lemma QualifiedNameSpecsParse(name: string)
    ensures ':' !in name ==>
      var tn := TagReferenceName(name);
      && Parse(":" + tn) == Some(RefSpec(false, "", tn))
      && Parse("+" + tn + ":" + tn) == Some(RefSpec(true, tn, tn))
  {
    if ':' !in name {
      var tn := TagReferenceName(name);
      assert ':' !in tn by {
        assert tn == name || tn == TagPrefix + name;
      }
      ParseDeletion(tn);
      ParseForcedUpdate(tn);
    }
  }

  /** The spec uses the qualified name, so a tag's short and full names
      give the same specs. */
  lemma ShortAndFullTagNameSameSpecs(name: string, deleted: bool)
    ensures TagRefSpecs(name, deleted) == TagRefSpecs(TagReferenceName(name), deleted)
  {
  }

  /** A tag handle: the base and the tag reference it was made for. */
  class Tag {
    const base: Base
    const reference: Reference

    /** newTag: a fresh base, not pending deletion, whose spec builder is
        this tag's TagRefSpecs. */
    constructor (ref: Reference)
      ensures reference == ref
      ensures fresh(base) && !base.isDeleted
      ensures forall d :: base.getRefSpecs(d) == TagRefSpecs(ref.name, d)
    {
      reference := ref;
      base := new Base(d => TagRefSpecs(ref.name, d));
    }

    /** tag.Delete: deletes the local tag by its short name and, only if
        that succeeded, marks the handle pending deletion; the engine's
        error is returned with the flag unchanged. */
    method Delete(deleteTag: string -> GoError) returns (err: GoError)
      modifies base`isDeleted
      ensures err == deleteTag(Short(reference.name))
      ensures err.None? ==> base.isDeleted
      ensures err.Some? ==> base.isDeleted == old(base.isDeleted)
    {
      err := deleteTag(Short(reference.name));
      if err.None? {
        err := base.Delete();
      }
    }
  }

  /** What a freshly made tag handle pushes before and after a successful
      local delete: the forced update, then the deletion. */
  method TagDeleteThenPush(ref: Reference, deleteTag: string -> GoError)
    returns (before: seq<string>, after: seq<string>, err: GoError)
    requires ':' !in ref.name
    ensures |before| == 1
    ensures Parse(before[0]) == Some(RefSpec(true, TagReferenceName(ref.name), TagReferenceName(ref.name)))
    ensures err.None? ==> after == [":" + TagReferenceName(ref.name)]
    ensures err.Some? ==> after == before
  {
    var t := new Tag(ref);
    before := t.base.RefSpecs();
    err := t.Delete(deleteTag);
    after := t.base.RefSpecs();
  }
}
